=== FILE: README.md ===
# express_server_boilerplate: error classification, migrations and environment checks

A Dafny model of the parts of the Express/PostgreSQL boilerplate that make
decisions:

- **Error classification** (`error_handler.dfy`, `error_middleware.dfy`).
  `ErrorHandler.processError` turns any thrown value into an `ApiError`:
  - an `ApiError` is kept as it is;
  - an object whose `code` is a five-unit string is classified by its
    SQLSTATE (PostgreSQL documentation, Appendix A "PostgreSQL Error Codes");
  - any other `Error` keeps its message, a thrown string becomes the
    message, and any other value gets a fixed text.

  The error middleware then answers with the error's status and shows its
  message only when the error is operational. A thrown value is a datatype
  tagged as `instanceof` and `typeof` see it. String lengths are JavaScript
  lengths, that is, UTF-16 code units.
- **Migration runner** (`migration_file.dfy`, `migration.dfy`). It is a state
  machine over three parts:
  - the `migrations` ledger (file names in id order);
  - the migrations directory (absent, or a map from file name to content);
  - an abstract schema.

  SQL runs through an oracle `Exec<S>` that yields the new schema or fails.
  `db.transaction` is an all-or-nothing step that runs one statement and one
  ledger write. `migration_file.dfy` models the text the runner handles:
  - `String.prototype.split` on `-- ROLLBACK`, and `trim`;
  - the `toISOString` timestamp stripped of `-`, `:` and `T`;
  - the whitespace-to-underscore slug;
  - the template `createMigration` writes.
- **Migration command line** (`migration_script.dfy`). `main` maps the
  argument list to a runner operation or a usage error.
  `showMigrationStatus` reports the executed and pending files.
- **Environment validation** (`validate_env.dfy`). The rule table is folded
  over the environment map into an ordered list of diagnostics. Start-up
  fails exactly when that list is not empty.

Supporting modules:
- `wrappers.dfy`: `Option` and `Result`.
- `js_string.dfy`: JavaScript whitespace, `trim`, `split`, `indexOf` and UTF-16
  length.
- `ordering.dfy`: the order `Array.prototype.sort` uses by default, and the
  sorted list of a set.

Behaviour of the code worth noting:
- `rollbackLast` on an empty ledger returns normally, so `down` then exits
  with status 0.
- A file with more than one marker rolls back with the text between the
  first and the second marker (`parts[1]`), not with everything after the
  first marker.
- `status` reports the number of ledger rows as "executed". It does not
  report the number of listed files that are in the ledger. The three
  numbers it prints add up only under the conditions of
  `MigrationScript.StatusBalanced`.

## Model

| member | source | states |
|---|---|---|
| ErrorHandler.ClassifyCode | src/shared/utils/errorHandler.ts:80-124 | every outcome keeps the code in `pgErrorCode`; operational outcomes are 400, 409 or 503 with one of the fixed client texts; the rest are 500; an unknown code gives the fallback database error |
| ErrorHandler.HandlePostgresError | src/shared/utils/errorHandler.ts:74-80 | an `ApiError` is returned as it is; anything else is the switch's classification of its code, which it keeps in `pgErrorCode` |
| ErrorHandler.ProcessError | src/shared/utils/errorHandler.ts:32-52 | an `ApiError` is unchanged; the database branch is taken exactly when `isPostgresError` holds; an `Error` keeps its message, a string becomes the message, anything else gets the fixed text, all as non-operational 500s; outside `ApiError` input, operational implies 400, 409 or 503 |
| ErrorHandler.ProcessErrorIdempotent | src/shared/utils/errorHandler.ts:34-36 | classifying an already classified error changes nothing |
| ErrorHandler.ErrorWithCode | src/shared/utils/errorHandler.ts:39-46 | an `Error` whose string `code` is five units long is classified by the table; one with a code of any other length keeps its message |
| ErrorHandler.ClassifyByClass | src/shared/utils/errorHandler.ts:85-119 | by SQLSTATE class: 23 gives 409 for a unique violation and 400 otherwise, operational; 42 and 28 give non-operational 500s; 08, 53 and 57 give operational 503s |
| ErrorHandler.KnownCodeShape | src/shared/utils/errorHandler.ts:83-119 | every code the switch recognises is five ASCII characters |
| ErrorHandler.IsPostgresError | src/shared/utils/errorHandler.ts:59-66 | `isPostgresError`; no contract of its own: `ErrorHandler.ProcessError` states that the database branch is taken exactly when it holds, and `ErrorHandler.FiveAsciiCode` and `ErrorHandler.ErrorWithCode` state which values satisfy it |
| ErrorHandler.FiveAsciiCode | src/shared/utils/errorHandler.ts:59-66 | an object with a five-ASCII-character string code passes `isPostgresError` |
| ErrorHandler.KnownCodesReachable | src/shared/utils/errorHandler.ts:59-66 | every recognised code passes `isPostgresError`, so `processError` reaches its row of the switch |
| JsString.Utf16Length | src/shared/utils/errorHandler.ts:65 | `.length` counts UTF-16 units: between one and two per character, and exactly one each when every character is in the Basic Multilingual Plane |
| ErrorMiddleware.RenderError | src/shared/middleware/errorHandler.middleware.ts:5-17 | the response status is the classified status; the body shows the classified message when it is operational and the fixed internal-error text otherwise |
| ErrorMiddleware.MessageShownIff | src/shared/middleware/errorHandler.middleware.ts:16 | the client sees the classified message exactly when the error is operational or the message happens to be the fixed text |
| ErrorMiddleware.NoLeak | src/shared/middleware/errorHandler.middleware.ts:15-17 | for anything but an application `ApiError`, the body is the internal-error text or one of the fixed database texts |
| ErrorMiddleware.FaultMessageHidden | src/shared/middleware/errorHandler.middleware.ts:16 | a generic `Error`'s own message never reaches the client: it is a 500 with the internal-error text |
| ErrorMiddleware.UniqueViolationRendered | src/shared/middleware/errorHandler.middleware.ts:15-16 | a unique violation renders as 409 "A record with this value already exists." |
| ErrorMiddleware.UnknownCodeRendered | src/shared/middleware/errorHandler.middleware.ts:15-16 | an unrecognised five-unit code renders as a 500 with the internal-error text |
| ValidateEnv.CheckRule | src/shared/utils/validateEnv.ts:42-67 | a required variable that is absent or blank gives exactly the missing-variable message; an optional one that is absent or empty gives nothing |
| ValidateEnv.RequiredStringRule | src/shared/utils/validateEnv.ts:45-67 | for a required string rule with a message: missing, else passes its validator, else the rule's message |
| ValidateEnv.DatabaseUrlRule | src/shared/utils/validateEnv.ts:12-18 | DATABASE_URL: missing when absent or blank, accepted exactly when it starts with `postgresql://`, otherwise the rule's message |
| ValidateEnv.NodeEnvRule | src/shared/utils/validateEnv.ts:19-25 | NODE_ENV: missing when absent or blank, accepted exactly when it is `development`, `production` or `test` |
| ValidateEnv.PortRule | src/shared/utils/validateEnv.ts:26-35 | PORT: nothing when absent or empty; not a number, then the type message; a number whose `parseInt` is 1..65535 passes; otherwise the rule's message |
| ValidateEnv.IsNumeric | src/shared/utils/validateEnv.ts:54 | `!isNaN(Number(value))` for decimal text; no contract of its own, `ValidateEnv.DigitsNumeric` states that every digit string passes and `ValidateEnv.PortRule` states where it decides |
| ValidateEnv.ParseInt | src/shared/utils/validateEnv.ts:31 | `parseInt(value, 10)`; no contract of its own, `ValidateEnv.DigitsParse` states that a digit string reads as its decimal value |
| ValidateEnv.Passes | src/shared/utils/validateEnv.ts:16-33 | the three validator lambdas; no contract of its own: `ValidateEnv.DatabaseUrlRule`, `ValidateEnv.NodeEnvRule`, `ValidateEnv.PortRule` and `ValidateEnv.PortDigits` state what each accepts against separate reference definitions |
| ValidateEnv.DigitsNumeric | src/shared/utils/validateEnv.ts:54 | a non-empty digit string passes the `Number` check |
| ValidateEnv.DigitsParse | src/shared/utils/validateEnv.ts:31 | `parseInt` of a non-empty digit string is its decimal value |
| ValidateEnv.PortDigits | src/shared/utils/validateEnv.ts:30-34 | a PORT of decimal digits is accepted exactly when its value is 1..65535, and is otherwise refused with the rule's message |
| ValidateEnv.ToLowerAscii | src/shared/utils/validateEnv.ts:59 | `toLowerCase` maps each ASCII capital to its small letter and keeps every other character, position by position |
| ValidateEnv.Collect | src/shared/utils/validateEnv.ts:41-68 | the loop: at most one diagnostic per rule, none exactly when every rule passes |
| ValidateEnv.CollectErrors | src/shared/utils/validateEnv.ts:39-68 | the table's diagnostics: at most one per rule, none exactly when every rule passes |
| ValidateEnv.CollectThreeWith | src/shared/utils/validateEnv.ts:41-68 | over three rules the diagnostics are the three verdicts in table order |
| ValidateEnv.CollectThree | src/shared/utils/validateEnv.ts:41-68 | the same for `CheckRule` over a three-rule table |
| ValidateEnv.ErrorsByVariable | src/shared/utils/validateEnv.ts:11-68 | the diagnostics are the DATABASE_URL, NODE_ENV and PORT verdicts, in that order |
| ValidateEnv.Validate | src/shared/utils/validateEnv.ts:81-87 | validation fails exactly when a diagnostic was collected, and then carries all of them |
| JsString.Trim | src/shared/utils/validateEnv.ts:45 | `trim` removes leading and trailing whitespace: the result is empty or starts and ends with a non-space |
| JsString.TrimBlank | src/shared/utils/validateEnv.ts:45 | `value.trim() === ""` exactly when the value is all whitespace |
| JsString.TrimAround | src/shared/database/migration.ts:94 | whitespace around a text with non-space ends is removed and nothing else |
| JsString.Split | src/shared/database/migration.ts:61 | `split` yields at least one part, and joining the parts with the separator gives the text back |
| JsString.SplitPieces | src/shared/database/migration.ts:89-90 | no part holds the separator, and there is one part exactly when the text lacks the separator |
| JsString.SplitJoin | src/shared/database/migration.ts:89 | splitting parts joined with a separator none of them holds gives the parts back |
| JsString.IndexOf | src/shared/database/migration.ts:61 | the first occurrence of the separator, or none exactly when there is none |
| Ordering.SortedList | src/shared/database/migration.ts:33 | `.sort()` of the listed names: sorted by code point, and the same names, each once |
| MigrationFile.Before | src/shared/database/migration.ts:61 | the first piece of the split: a prefix without the marker, all of the text when it has none, and followed by the marker otherwise |
| MigrationFile.UpSection | src/shared/database/migration.ts:61-64 | the statement `runMigrations` executes is the trimmed text before the first marker, or the whole trimmed file |
| MigrationFile.RollbackSection | src/shared/database/migration.ts:89-94 | none exactly when the file lacks the marker; otherwise the trimmed text between the first marker and the next one or the end |
| MigrationFile.RollbackOfTwoParts | src/shared/database/migration.ts:89-94 | a file that splits into two parts rolls back with its second part, trimmed |
| MigrationFile.IsoString | src/shared/database/migration.ts:105 | `toISOString` is always 24 characters long |
| MigrationFile.Strip | src/shared/database/migration.ts:105 | `.replace(/[-:T]/g, "")` never lengthens the text |
| MigrationFile.StripRemovesPunctuation | src/shared/database/migration.ts:105 | what is left holds no `-`, `:` or `T` and keeps every other character |
| MigrationFile.StripConcat | src/shared/database/migration.ts:105 | the replacement works piece by piece |
| MigrationFile.StampDigits | src/shared/database/migration.ts:105 | the stamp is the digits of year, month, day, hour, minute and second, in that order |
| MigrationFile.Stamp | src/shared/database/migration.ts:105 | the first fourteen characters of the stripped ISO text; no contract of its own, `MigrationFile.StampDigits` and `MigrationFile.StampRoundTrip` state that they are the date and time digits and read back as them |
| MigrationFile.StampRoundTrip | src/shared/database/migration.ts:105 | for a four-digit year the stamp is fourteen digits that read back as the six fields |
| MigrationFile.Slug | src/shared/database/migration.ts:106 | `.replace(/\s+/g, "_")` leaves no whitespace and never lengthens the name |
| MigrationFile.SlugKeeps | src/shared/database/migration.ts:106 | a name without whitespace is kept |
| MigrationFile.SlugRun | src/shared/database/migration.ts:106 | a maximal run of whitespace becomes one underscore |
| MigrationFile.FileName | src/shared/database/migration.ts:106 | `${timestamp}_${slug}.sql`; no contract of its own, `MigrationFile.FileNameShape` states its layout |
| MigrationFile.FileNameShape | src/shared/database/migration.ts:105-106 | the file name is the fourteen-digit stamp, `_`, the slug and `.sql`, with no whitespace |
| MigrationFile.HeaderLine | src/shared/database/migration.ts:109 | the header line holds the marker only if the name does |
| MigrationFile.TemplateHeadClean | src/shared/database/migration.ts:109-118 | the template's lines before the marker line hold no marker when the name holds none |
| MigrationFile.TemplateAtMarker | src/shared/database/migration.ts:109-121 | the template is its first lines, a line break, the marker and `DROP TABLE example;` on its own line |
| MigrationFile.RollbackLineTrimmed | src/shared/database/migration.ts:119-121 | the text after the template's marker trims to `DROP TABLE example;` |
| MigrationFile.Template | src/shared/database/migration.ts:109-121 | the file text `createMigration` writes; no contract of its own, `MigrationFile.HeaderLine`, `MigrationFile.TemplateAtMarker`, `MigrationFile.TemplateSplit` and `MigrationFile.TemplateSections` state its header, its single marker and its two sections |
| MigrationFile.TemplateSplit | src/shared/database/migration.ts:109-121 | for a name without the marker the template splits into the head and the rollback line |
| MigrationFile.TemplateSections | src/shared/database/migration.ts:109-121 | for a name without the marker the template has exactly two parts, and its rollback section is `DROP TABLE example;` |
| Migration.GetMigrationFiles | src/shared/database/migration.ts:30-38 | exactly the `.sql` entries of the directory, sorted; a missing directory is created and lists nothing; ledger and schema untouched |
| Migration.Pending | src/shared/database/migration.ts:47 | a file is pending exactly when it is listed and not in the ledger |
| Migration.PendingSorted | src/shared/database/migration.ts:47 | the pending files of a sorted listing are sorted |
| Migration.PendingNone | src/shared/database/migration.ts:47-52 | nothing is pending once every listed file is in the ledger |
| Migration.ExecutedMigrations | src/shared/database/migration.ts:25-28 | the ledger's file names in id order; no contract of its own, `Migration.Executed` and `Migration.PendingExecutedCount` state how the pending filter uses it |
| Migration.Executed | src/shared/database/migration.ts:47 | the listed files that the filter drops are exactly those in the ledger |
| Migration.PendingExecutedCount | src/shared/database/migration.ts:47 | every listed file is pending or executed, never both |
| Migration.ApplyLedger | src/shared/database/migration.ts:15-22 | an insert fails on a recorded name (UNIQUE) or a name over 255 characters (VARCHAR(255)) and otherwise appends; a delete removes the name |
| Migration.Without | src/shared/database/migration.ts:98 | `DELETE ... WHERE filename = $1` keeps every other name |
| Migration.WithoutLast | src/shared/database/migration.ts:98 | in a ledger of unique names, deleting the last name drops the last row |
| Migration.Transaction | src/config/database.ts:58-71 | the statement and the ledger write both take effect, or neither does and the error names the file |
| Migration.ApplyOne | src/shared/database/migration.ts:54-66 | one pass succeeds exactly when the file is readable, new, short enough and its forward section runs; it then appends the file and takes the new schema; a failure names the file |
| Migration.ApplyOneAppends | src/shared/database/migration.ts:54-66 | a pass appends its file on success and names it on failure |
| Migration.ApplyOneRuns | src/shared/database/migration.ts:58-64 | a pass's new schema is what the file's forward section makes of the old one |
| Migration.ApplyAll | src/shared/database/migration.ts:54-69 | the `for` loop over the pending files; no contract of its own: `Migration.ApplyAllCommits` and `Migration.ApplyAllReplays` state the prefix it commits, the file it stops at and the schema it leaves |
| Migration.ApplyAllCommits | src/shared/database/migration.ts:54-69 | the loop commits a prefix of the pending files, all of them on success; a failure names the first file not committed |
| Migration.ApplyAllReplays | src/shared/database/migration.ts:54-66 | the schema after the loop is the committed files' forward sections run in order |
| Migration.RunMigrations | src/shared/database/migration.ts:41-70 | `runMigrations` against the database; no contract of its own, `Migration.RunMigrationsOutcome`, `Migration.RunMigrationsReplays`, `Migration.RunMigrationsIdempotent` and `Migration.RunMigrationsKeepsUnique` state what it commits, the schema it leaves, that a second run applies nothing and that the ledger stays free of duplicates |
| Migration.RunMigrationsWithOutcome | src/shared/database/migration.ts:41-70 | with nothing pending nothing happens; otherwise all pending files are committed in order, or a prefix and the failing file is named |
| Migration.RunMigrationsOutcome | src/shared/database/migration.ts:41-70 | the same for `runMigrations` against a database |
| Migration.RunMigrationsWithReplays | src/shared/database/migration.ts:54-66 | the schema after a run is what the newly recorded files make of the schema before it |
| Migration.RunMigrationsReplays | src/shared/database/migration.ts:54-66 | the same for `runMigrations` against a database |
| Migration.RunMigrationsWithIdempotent | src/shared/database/migration.ts:47-52 | after a successful run, a second run finds nothing pending and changes nothing |
| Migration.RunMigrationsIdempotent | src/shared/database/migration.ts:47-52 | the same for `runMigrations` against a database |
| Migration.RunMigrationsWithKeepsUnique | src/shared/database/migration.ts:17-21 | a run keeps the ledger's names unique |
| Migration.RunMigrationsKeepsUnique | src/shared/database/migration.ts:17-21 | the same for `runMigrations` against a database |
| Migration.RollbackLast | src/shared/database/migration.ts:72-102 | `rollbackLast`; no contract of its own, `Migration.RollbackLastOutcome`, `Migration.RollbackLastFailure`, `Migration.RollbackLastSuccess` and `Migration.RollbackLastDropsLast` state when it fails, that a failure changes nothing, the schema and ledger after success, and that the newest row goes |
| Migration.RollbackLastOutcome | src/shared/database/migration.ts:72-99 | an empty ledger returns at once; a missing file, then a file without the marker, fail; otherwise success exactly when the rollback section runs |
| Migration.RollbackLastFailure | src/shared/database/migration.ts:85-99 | a failed rollback changes nothing and names the newest file |
| Migration.RollbackLastSuccess | src/shared/database/migration.ts:85-99 | a successful rollback read the newest file, which has a marker; the schema is what the database made of the trimmed `parts[1]`; that file's row is deleted and the directory is kept |
| Migration.RollbackLastDropsLast | src/shared/database/migration.ts:96-99 | with unique names it drops exactly the last ledger row |
| Migration.RollbackLastDropsNewest | src/shared/database/migration.ts:75-99 | the same, as a property of `rollbackLast` for every state |
| Migration.RollbackRepeatStep | src/shared/database/migration.ts:72-102 | `n` successful rollbacks are one rollback that drops the newest row, then `n - 1` more |
| Migration.RollbackRepeatLedger | src/shared/database/migration.ts:72-102 | `n` successful rollbacks drop the last `n` rows |
| Migration.RollbackRepeatOrder | src/shared/database/migration.ts:72-102 | they undo those files newest first |
| Migration.RollbackRepeatAppended | src/shared/database/migration.ts:72-102 | undoing the rows appended after `a` returns the ledger to `a` and the files in reverse order |
| Migration.ApplyThenRollback | src/shared/database/migration.ts:41-102 | after a successful run, as many rollbacks as files applied restore the ledger and undo the files in reverse order |
| Migration.CreateMigration | src/shared/database/migration.ts:104-127 | the ledger and schema are untouched, the directory exists afterwards, and the template is written under the returned name unless the slugged name holds `/`, which the model counts as a failed write |
| Migration.CreatedIsPending | src/shared/database/migration.ts:104-106 | a created file is listed by the next run, and is pending unless already in the ledger |
| Migration.CreatedRollsBack | src/shared/database/migration.ts:109-121 | for a name without the marker, the created file rolls back with `DROP TABLE example;` |
| MigrationScript.CommandWord | src/shared/database/migrationScript.ts:8 | the command word is never empty: the first argument when it is present and not empty, `up` otherwise |
| MigrationScript.ParseArgs | src/shared/database/migrationScript.ts:7-45 | a command exactly for `up` (also the default), `down`, `status`, or `create` with a non-empty name; `create` without one is a missing-name error; any other word is an unknown-command error |
| MigrationScript.ParseCommandArgs | src/shared/database/migrationScript.ts:8-39 | every command is reached by its own argument list, and no arguments mean `up` |
| MigrationScript.ParsedFrom | src/shared/database/migrationScript.ts:16-39 | a parsed command comes from its own word, and `create` from the second argument |
| MigrationScript.Status | src/shared/database/migrationScript.ts:54-83 | status keeps the ledger and schema, reports the ledger as executed, and reports as pending exactly the listed files not in the ledger |
| MigrationScript.StatusAgreesWithRun | src/shared/database/migrationScript.ts:61 | status reports as pending what `runMigrations` would apply, in the same order; when it reports none, a run changes nothing |
| MigrationScript.StatusCounts | src/shared/database/migrationScript.ts:61-83 | the pending files and the listed files in the ledger add up to the total |
| MigrationScript.StatusBalanced | src/shared/database/migrationScript.ts:83 | the printed executed and pending counts add up to the total when the ledger holds only listed files, each once |
| MigrationScript.CreateOutcome | src/shared/database/migrationScript.ts:37-39 | `create` reports the file `createMigration` wrote, or the failure to write it when the slugged name holds `/` |
| MigrationScript.Main | src/shared/database/migrationScript.ts:6-51 | a usage error changes nothing and is refused; the exit status is 0 exactly when the arguments parse and no operation throws; only `up` and `down` change the schema; the arms are stated one by one by `MigrationScript.MainUp`, `MigrationScript.MainDown`, `MigrationScript.MainStatus` and `MigrationScript.MainCreate` |
| MigrationScript.MainUp | src/shared/database/migrationScript.ts:17-20 | `up` is `runMigrations`, and is done exactly when that returns normally |
| MigrationScript.MainDown | src/shared/database/migrationScript.ts:22-25 | `down` is `rollbackLast`, and is done exactly when that returns normally |
| MigrationScript.MainStatus | src/shared/database/migrationScript.ts:27-29 | `status` lists the directory and reports the ledger as executed and, as pending, exactly the listed files a run would apply, in order |
| MigrationScript.MainCreate | src/shared/database/migrationScript.ts:31-39 | `create` writes the file named by the clock and the name, or fails when that name holds `/` |
| MigrationScript.MainLedger | src/shared/database/migrationScript.ts:27-39 | `status`, `create` and usage errors leave the ledger and schema as they were |

## Left out

- Logging (`logger`, `console.error`) is left out. It does not affect any result.
- The production `LOG_LEVEL` warning in `validateEnv` is left out. It only logs.
- The `pg` pool is left out: connections, `getClient`, `release` and `db.close`. So are the `finally` of `main` and the process signal and unhandled-rejection handlers. These are resource handling outside the decisions modelled.
- `process.exit` is left out. `main` instead returns an outcome, and `ExitCode` is its exit status.
- `ensureMigrationsTable` is left out. The ledger always exists in the model, since the table is created `IF NOT EXISTS` before every use.
- A `readdir` failure other than a missing directory is left out. Every `readdir` error creates the directory and lists nothing, which is what a missing directory gives.
- A `writeFile` failure is modelled only for a slugged name holding `/`. Other I/O faults are not modelled.
- Migration.CreateMigration: any slugged name holding `/` is modelled as a failed write. The source passes the name to `path.join`, which resolves `.` and `..` segments, so it writes successfully when the resolved path names an existing directory: `a/../b` writes `<stamp>_a/../b.sql` as `b.sql` in the directory, and `a/../../x` writes outside it. Path resolution and the directories around the migrations directory are not modelled.
- MigrationScript.CreateOutcome: reports `Failed` for every slugged name holding `/`, while the source reports the file created and exits 0 whenever `path.join` resolves the name to a writable path, for the reason given for Migration.CreateMigration.
- MigrationScript.MainCreate: `create` fails for every slugged name holding `/`, while the source writes the `..`-resolved path, possibly outside the directory, and exits 0, for the reason given for Migration.CreateMigration.
- SQL and the schema are an oracle parameter `Exec<S>`, and the clock is two `Instant` parameters (`createMigration` reads it twice). Neither is modelled further.
- Concurrent runners racing on the ledger are left out.
- The health-check middleware, `app.ts`, `server.ts` and `config.ts` are left out. They are framework wiring.
- `Error.captureStackTrace`, `setPrototypeOf` and stack traces are left out. `instanceof` is a datatype tag.
- The SQLSTATE enum file (`src/shared/types/errors`) is not part of this model. Its literals are taken from Appendix A of the PostgreSQL documentation. CONNECTION_LIMIT_EXCEEDED is read as `53300`, `too_many_connections`.
- ValidateEnv.IsNumeric: models `Number()` only for trimmed, optionally signed decimal literals. Exponents, hexadecimal, binary and octal literals and `Infinity` are not modelled. As a consequence, `PORT=1e3` passes in the source (`Number` gives 1000 and `parseInt` gives 1) but the model refuses it with "Environment variable PORT must be a number"; `0x10` and `Infinity` are refused by both, but with different messages: in the source `Number` accepts them and `parseInt` gives 0 and NaN, so the rule's "PORT must be a valid port number (1-65535)" is reported, while the model reports "Environment variable PORT must be a number".
- ValidateEnv.ParseInt: models `parseInt(v, 10)` as leading whitespace, an optional sign and the longest digit prefix.
- ValidateEnv.ToLowerAscii: lower-cases ASCII letters only, not all of Unicode. It only serves the boolean rule, which the table does not use.
- Ordering.SortedList: orders names by code point, while `Array.prototype.sort` compares UTF-16 code units. The two orders agree on names without characters above U+FFFF.
- Migration.RollbackRepeat and Migration.RollbackTimes are not operations of the source. They express "call `rollbackLast` n times" for the round-trip property. `Migration.Replay` likewise expresses what the committed files do to the schema.
- MigrationFile.ValidInstant: only four-digit years are modelled. `toISOString` writes other years with a sign and six digits.

=== FILE: error_handler.dfy ===
/** Classification of arbitrary thrown values into `ApiError`s: an
    `ApiError` passes through, a value carrying a five-character SQLSTATE
    `code` goes through a fixed table, and everything else becomes a
    non-operational 500. */
module ErrorHandler {
  import opened Wrappers
  import opened JsString

  /** The HTTP status codes the classifier produces: sections 15.5.1,
      15.5.10, 15.6.1 and 15.6.4 of RFC 9110. */
  const BadRequest := 400
  const Conflict := 409
  const InternalServerError := 500
  const ServiceUnavailable := 503

  /** A classified error. As in the source's constructor, the status
      defaults to 500, `isOperational` to true and the SQLSTATE to none. */
  datatype ApiError = ApiError(
    message: string,
    statusCode: int := InternalServerError,
    isOperational: bool := true,
    pgErrorCode: Option<string> := None)

  /** The `code` property of a thrown object, as `typeof` sees it. */
  datatype CodeProperty = NoCode | StringCode(code: string) | OtherCode

  /** A thrown JavaScript value, told apart by the tests the classifier
      applies: `instanceof ApiError`, `instanceof Error`, `typeof`. */
  datatype Thrown =
    | Api(api: ApiError)                          // an `ApiError` instance
    | Fault(message: string, code: CodeProperty)  // any other `Error` instance
    | Plain(code: CodeProperty)                   // any other non-null object
    | Text(text: string)                          // a string primitive
    | Other                                       // null, undefined, numbers, booleans, functions, ...

  /** SQLSTATE codes the table recognises (PostgreSQL documentation,
      Appendix A "PostgreSQL Error Codes"). */
  const UniqueViolation := "23505"
  const ForeignKeyViolation := "23503"
  const NotNullViolation := "23502"
  const CheckViolation := "23514"
  const UndefinedTable := "42P01"
  const UndefinedColumn := "42703"
  const UndefinedFunction := "42883"
  const ConnectionFailure := "08006"
  const ConnectionLimitExceeded := "53300"
  const InvalidPassword := "28P01"
  const AdminShutdown := "57P01"
  const CrashShutdown := "57P02"

  const KnownCodes: set<string> := {
    UniqueViolation, ForeignKeyViolation, NotNullViolation, CheckViolation,
    UndefinedTable, UndefinedColumn, UndefinedFunction,
    ConnectionFailure, ConnectionLimitExceeded, InvalidPassword,
    AdminShutdown, CrashShutdown
  }

  const UnexpectedDatabaseError := "An unexpected database error occurred."
  const UnexpectedError := "An unexpected error occurred"

  /** The fixed texts a database error may carry to a client. */
  const OperationalMessages: set<string> := {
    "A record with this value already exists.",
    "This operation violates a foreign key constraint.",
    "Required field is missing.",
    "The value violates a check constraint.",
    "Database connection error.",
    "Database server is currently unavailable."
  }

  /** The source's `isPostgresError`: a non-null object whose `code` is a
      string of (UTF-16) length 5. An `ApiError` has no `code`. */
  predicate IsPostgresError(e: Thrown) {
    match e
    case Fault(_, StringCode(c)) => Utf16Length(c) == 5
    case Plain(StringCode(c)) => Utf16Length(c) == 5
    case _ => false
  }

  function CodeOf(e: Thrown): string
    requires IsPostgresError(e)
  {
    e.code.code
  }

  /** The `switch` of `handlePostgresError` over the SQLSTATE. Every
      outcome keeps the code; an operational one is a 4xx or a 503 with a
      fixed text, and everything else is a 500. */
  function ClassifyCode(code: string): (r: ApiError)
    ensures r.pgErrorCode == Some(code)
    ensures r.isOperational ==> r.statusCode in {BadRequest, Conflict, ServiceUnavailable}
    ensures r.isOperational ==> r.message in OperationalMessages
    ensures !r.isOperational ==> r.statusCode == InternalServerError
    ensures code !in KnownCodes ==> r == ApiError(UnexpectedDatabaseError, InternalServerError, false, Some(code))
  {
    if code == UniqueViolation then
      ApiError("A record with this value already exists.", Conflict, true, Some(code))
    else if code == ForeignKeyViolation then
      ApiError("This operation violates a foreign key constraint.", BadRequest, true, Some(code))
    else if code == NotNullViolation then
      ApiError("Required field is missing.", BadRequest, true, Some(code))
    else if code == CheckViolation then
      ApiError("The value violates a check constraint.", BadRequest, true, Some(code))
    else if code == UndefinedTable then
      ApiError("The requested table does not exist.", InternalServerError, false, Some(code))
    else if code == UndefinedColumn then
      ApiError("The requested column does not exist.", InternalServerError, false, Some(code))
    else if code == UndefinedFunction then
      ApiError("The requested function does not exist.", InternalServerError, false, Some(code))
    else if code == ConnectionFailure || code == ConnectionLimitExceeded then
      ApiError("Database connection error.", ServiceUnavailable, true, Some(code))
    else if code == InvalidPassword then
      ApiError("Invalid database credentials.", InternalServerError, false, Some(code))
    else if code == AdminShutdown || code == CrashShutdown then
      ApiError("Database server is currently unavailable.", ServiceUnavailable, true, Some(code))
    else
      ApiError(UnexpectedDatabaseError, InternalServerError, false, Some(code))
  }

  /** `handlePostgresError`: an `ApiError` is returned as it is, anything
      else is classified by its code. */
  function HandlePostgresError(e: Thrown): (r: ApiError)
    requires e.Api? || IsPostgresError(e)
    ensures e.Api? ==> r == e.api
    ensures !e.Api? ==> r == ClassifyCode(CodeOf(e)) && r.pgErrorCode == Some(CodeOf(e))
  {
    if e.Api? then e.api else ClassifyCode(CodeOf(e))
  }

  /** `processError`. */
  function ProcessError(e: Thrown): (r: ApiError)
    // an `ApiError` is returned unchanged
    ensures e.Api? ==> r == e.api
    // the database branch is taken exactly for the values `isPostgresError` accepts
    ensures !e.Api? ==> (r.pgErrorCode.Some? <==> IsPostgresError(e))
    ensures IsPostgresError(e) ==> r == ClassifyCode(CodeOf(e))
    // an unclassified value is an internal fault
    ensures !e.Api? && r.isOperational ==> r.statusCode in {BadRequest, Conflict, ServiceUnavailable}
    ensures !e.Api? && !IsPostgresError(e) ==> !r.isOperational && r.statusCode == InternalServerError
    ensures e.Fault? && !IsPostgresError(e) ==> r.message == e.message
    ensures e.Text? ==> r.message == e.text
    ensures e.Other? || (e.Plain? && !IsPostgresError(e)) ==> r.message == UnexpectedError
  {
    if e.Api? then e.api
    else if IsPostgresError(e) then HandlePostgresError(e)
    else if e.Fault? then ApiError(e.message, InternalServerError, false)
    else if e.Text? then ApiError(e.text, InternalServerError, false)
    else ApiError(UnexpectedError, InternalServerError, false)
  }

  /** Classifying a classified error changes nothing. */
  lemma ProcessErrorIdempotent(e: Thrown)
    ensures ProcessError(Api(ProcessError(e))) == ProcessError(e)
  {
  }

  /** The database check comes before the `instanceof Error` check: an
      `Error` with a five-character string `code` is classified by the
      table, and one with a code of any other length keeps its message. */
  lemma ErrorWithCode(message: string, code: string)
    ensures Utf16Length(code) == 5 ==> ProcessError(Fault(message, StringCode(code))) == ClassifyCode(code)
    ensures Utf16Length(code) != 5 ==>
      ProcessError(Fault(message, StringCode(code))) == ApiError(message, InternalServerError, false, None)
  {
  }

  /** The SQLSTATE class: the first two characters of the code. */
  predicate InClass(code: string, c0: char, c1: char) {
    |code| >= 2 && code[0] == c0 && code[1] == c1
  }

  /** The classification table read by SQLSTATE class: integrity
      violations (class 23) are the caller's fault, undefined objects (42)
      and bad credentials (28) are internal, and connection trouble (08),
      resource exhaustion (53) and shutdowns (57) mean the database is
      unavailable. */
  lemma ClassifyByClass(code: string)
    requires code in KnownCodes
    ensures var r := ClassifyCode(code);
      && (InClass(code, '2', '3') ==> r.isOperational && r.statusCode == (if code == UniqueViolation then Conflict else BadRequest))
      && (InClass(code, '4', '2') || InClass(code, '2', '8') ==> !r.isOperational && r.statusCode == InternalServerError)
      && (InClass(code, '0', '8') || InClass(code, '5', '3') || InClass(code, '5', '7') ==>
            r.isOperational && r.statusCode == ServiceUnavailable)
  {
    if code == UniqueViolation {
    } else if code == ForeignKeyViolation {
    } else if code == NotNullViolation {
    } else if code == CheckViolation {
    } else if code == UndefinedTable {
    } else if code == UndefinedColumn {
    } else if code == UndefinedFunction {
    } else if code == ConnectionFailure {
    } else if code == ConnectionLimitExceeded {
    } else if code == InvalidPassword {
    } else if code == AdminShutdown {
    } else {
      assert code == CrashShutdown;
    }
  }

  /** Every recognised code is five ASCII characters. */
  lemma KnownCodeShape(code: string)
    requires code in KnownCodes
    ensures |code| == 5 && forall i :: 0 <= i < 5 ==> code[i] <= 'Z'
  {
  }

  /** Hence every recognised code passes `isPostgresError`, so
      `processError` reaches its row of the table. */
  lemma KnownCodesReachable(code: string)
    requires code in KnownCodes
    ensures Utf16Length(code) == 5
    ensures IsPostgresError(Plain(StringCode(code)))
  {
    KnownCodeShape(code);
    FiveAsciiCode(code);
  }

  /** A code of five ASCII characters is five UTF-16 units long. */
  lemma FiveAsciiCode(code: string)
    requires |code| == 5 && forall i :: 0 <= i < 5 ==> code[i] <= 'Z'
    ensures Utf16Length(code) == 5
    ensures IsPostgresError(Plain(StringCode(code)))
  {
    forall i | 0 <= i < |code| ensures code[i] <= '\U{FFFF}' {
    }
  }
}

=== FILE: error_middleware.dfy ===
/** The Express error middleware: every error reaching the HTTP boundary
    is classified, and its status and a client-safe message are sent. */
module ErrorMiddleware {
  import opened Wrappers
  import opened JsString
  import opened ErrorHandler

  /** The fixed text sent in place of a non-operational message. */
  const InternalErrorMessage :=
    "An unexpected internal server error occurred, check logs on the server for more details"

  /** The response: its status and the `message` of its JSON body. */
  datatype Response = Response(status: int, message: string)

  /** `errorHandlerMiddleware`, without its logging. */
  function RenderError(err: Thrown): (resp: Response)
    ensures resp.status == ProcessError(err).statusCode
    ensures ProcessError(err).isOperational ==> resp.message == ProcessError(err).message
    ensures !ProcessError(err).isOperational ==> resp.message == InternalErrorMessage
  {
    var apiError := ProcessError(err);
    Response(apiError.statusCode, if apiError.isOperational then apiError.message else InternalErrorMessage)
  }

  /** The client sees the classified message exactly when the error is
      operational, unless that message happens to be the fallback text
      itself. */
  lemma MessageShownIff(err: Thrown)
    ensures RenderError(err).message == ProcessError(err).message <==>
            ProcessError(err).isOperational || ProcessError(err).message == InternalErrorMessage
  {
  }

  /** No leak: for anything but an `ApiError` built by the application,
      the client sees either the fallback text or one of the fixed
      database texts, never a raw message. */
  lemma NoLeak(err: Thrown)
    requires !err.Api?
    ensures RenderError(err).message == InternalErrorMessage ||
            RenderError(err).message in OperationalMessages
  {
  }

  /** In particular a generic `Error`'s own message never reaches the
      client, whatever it says, unless it carries a SQLSTATE. */
  lemma FaultMessageHidden(message: string, code: CodeProperty)
    requires !IsPostgresError(Fault(message, code))
    ensures RenderError(Fault(message, code)) == Response(InternalServerError, InternalErrorMessage)
  {
  }

  /** A unique violation is a 409 with its fixed text. */
  lemma UniqueViolationRendered(err: Thrown)
    requires (err.Fault? || err.Plain?) && err.code == StringCode(UniqueViolation)
    ensures RenderError(err) == Response(Conflict, "A record with this value already exists.")
  {
    KnownCodesReachable(UniqueViolation);
  }

  /** A SQLSTATE the table does not know is a 500 with the fallback text. */
  lemma UnknownCodeRendered(err: Thrown, code: string)
    requires (err.Fault? || err.Plain?) && err.code == StringCode(code)
    requires Utf16Length(code) == 5 && code !in KnownCodes
    ensures RenderError(err) == Response(InternalServerError, InternalErrorMessage)
  {
  }
}

=== FILE: js_string.dfy ===
/** The fragment of JavaScript's string semantics the service relies on:
    whitespace, `trim`, `length`, `startsWith`/`endsWith` and `split` on a
    non-empty separator. Strings are sequences of Unicode code points. */
module JsString {
  import opened Wrappers

  /** ECMAScript WhiteSpace and LineTerminator code points: what
      `String.prototype.trim` strips and what the regular-expression class
      `\s` matches. */
  const Spaces: set<char> := {
    '\t', '\n', '\U{0B}', '\U{0C}', '\r', ' ', '\U{A0}', '\U{1680}',
    '\U{2000}', '\U{2001}', '\U{2002}', '\U{2003}', '\U{2004}', '\U{2005}',
    '\U{2006}', '\U{2007}', '\U{2008}', '\U{2009}', '\U{200A}',
    '\U{2028}', '\U{2029}', '\U{202F}', '\U{205F}', '\U{3000}', '\U{FEFF}'
  }

  predicate IsSpace(c: char) {
    c in Spaces
  }

  predicate AllSpace(s: string) {
    forall i :: 0 <= i < |s| ==> IsSpace(s[i])
  }

  predicate NoSpace(s: string) {
    forall i :: 0 <= i < |s| ==> !IsSpace(s[i])
  }

  predicate StartsWith(s: string, prefix: string) {
    |prefix| <= |s| && s[..|prefix|] == prefix
  }

  predicate EndsWith(s: string, suffix: string) {
    |suffix| <= |s| && s[|s| - |suffix|..] == suffix
  }

  lemma AllSpaceSnoc(w: string, c: char)
    requires AllSpace(w) && IsSpace(c)
    ensures AllSpace(w + [c])
  {
    assert forall i :: 0 <= i < |w| ==> (w + [c])[i] == w[i];
  }

  /** The length of the whitespace run `s` starts with. */
  function LeadingSpaces(s: string): (n: nat)
    ensures n <= |s| && AllSpace(s[..n])
    ensures n == |s| || !IsSpace(s[n])
    decreases |s|
  {
    if |s| > 0 && IsSpace(s[0]) then
      var n := 1 + LeadingSpaces(s[1..]);
      assert forall i :: 1 <= i < n ==> s[..n][i] == s[1..][..n - 1][i - 1];
      n
    else
      0
  }

  /** The length of the whitespace run `s` ends with. */
  function TrailingSpaces(s: string): (n: nat)
    ensures n <= |s| && AllSpace(s[|s| - n..])
    ensures n == |s| || !IsSpace(s[|s| - 1 - n])
    decreases |s|
  {
    if |s| > 0 && IsSpace(s[|s| - 1]) then
      var t := s[..|s| - 1];
      var n := 1 + TrailingSpaces(t);
      assert s[|s| - n..] == t[|t| - (n - 1)..] + [s[|s| - 1]];
      AllSpaceSnoc(t[|t| - (n - 1)..], s[|s| - 1]);
      n
    else
      0
  }

  /** The leading run is the only prefix of whitespace followed by a
      non-space or the end. */
  lemma LeadingSpacesIs(s: string, k: nat)
    requires k <= |s| && AllSpace(s[..k])
    requires k == |s| || !IsSpace(s[k])
    ensures LeadingSpaces(s) == k
  {
    var n := LeadingSpaces(s);
    forall i | 0 <= i < k ensures IsSpace(s[i]) {
      assert s[..k][i] == s[i];
    }
    forall i | 0 <= i < n ensures IsSpace(s[i]) {
      assert s[..n][i] == s[i];
    }
  }

  /** Likewise for the trailing run. */
  lemma TrailingSpacesIs(s: string, k: nat)
    requires k <= |s| && AllSpace(s[|s| - k..])
    requires k == |s| || !IsSpace(s[|s| - 1 - k])
    ensures TrailingSpaces(s) == k
  {
    var n := TrailingSpaces(s);
    forall i | |s| - k <= i < |s| ensures IsSpace(s[i]) {
      assert s[|s| - k..][i - (|s| - k)] == s[i];
    }
    forall i | |s| - n <= i < |s| ensures IsSpace(s[i]) {
      assert s[|s| - n..][i - (|s| - n)] == s[i];
    }
    assert n == |s| || !IsSpace(s[|s| - 1 - n]);
    assert k == |s| || !IsSpace(s[|s| - 1 - k]);
  }

  /** Drops the leading whitespace run. */
  function TrimStart(s: string): (r: string)
    ensures |r| <= |s| && r == s[|s| - |r|..]
    ensures AllSpace(s[..|s| - |r|])
    ensures r == [] || !IsSpace(r[0])
  {
    s[LeadingSpaces(s)..]
  }

  /** Drops the trailing whitespace run. */
  function TrimEnd(s: string): (r: string)
    ensures |r| <= |s| && r == s[..|r|]
    ensures AllSpace(s[|r|..])
    ensures r == [] || !IsSpace(r[|r| - 1])
  {
    s[..|s| - TrailingSpaces(s)]
  }

  /** `String.prototype.trim`. */
  function Trim(s: string): (r: string)
    ensures |r| <= |s|
    ensures r == [] || (!IsSpace(r[0]) && !IsSpace(r[|r| - 1]))
  {
    var t := TrimStart(s);
    var r := TrimEnd(t);
    assert r == t[..|r|];
    r
  }

  predicate IsDigit(c: char) {
    '0' <= c <= '9'
  }

  predicate AllDigits(s: string) {
    forall i :: 0 <= i < |s| ==> IsDigit(s[i])
  }

  /** The length of the run of decimal digits `s` starts with. */
  function DigitPrefixLength(s: string): (n: nat)
    ensures n <= |s| && AllDigits(s[..n])
    ensures n == |s| || !IsDigit(s[n])
    decreases |s|
  {
    if |s| > 0 && IsDigit(s[0]) then
      var n := 1 + DigitPrefixLength(s[1..]);
      assert s[..n] == [s[0]] + s[1..][..n - 1];
      n
    else
      0
  }

  /** The value of a string of decimal digits. */
  function DecimalValue(d: string): nat
    requires AllDigits(d)
    decreases |d|
  {
    if d == [] then 0
    else 10 * DecimalValue(d[..|d| - 1]) + (d[|d| - 1] as int - '0' as int)
  }

  /** Text with no whitespace at either end is left as it is. */
  lemma TrimUnpadded(s: string)
    requires s == [] || (!IsSpace(s[0]) && !IsSpace(s[|s| - 1]))
    ensures TrimStart(s) == s && TrimEnd(s) == s && Trim(s) == s
  {
  }

  lemma TrimStartRun(w: string, b: string)
    requires AllSpace(w)
    requires b == [] || !IsSpace(b[0])
    ensures TrimStart(w + b) == b
  {
    var s := w + b;
    assert s[..|w|] == w;
    assert |w| < |s| ==> s[|w|] == b[0];
    LeadingSpacesIs(s, |w|);
    assert s[|w|..] == b;
  }

  lemma TrimEndRun(a: string, w: string)
    requires AllSpace(w)
    requires a == [] || !IsSpace(a[|a| - 1])
    ensures TrimEnd(a + w) == a
  {
    var s := a + w;
    assert s[|s| - |w|..] == w;
    assert |w| < |s| ==> s[|s| - 1 - |w|] == a[|a| - 1];
    TrailingSpacesIs(s, |w|);
    assert s[..|a|] == a;
  }

  /** Trimming removes exactly the whitespace runs around unpadded text. */
  lemma TrimAround(w1: string, x: string, w2: string)
    requires AllSpace(w1) && AllSpace(w2)
    requires x != [] && !IsSpace(x[0]) && !IsSpace(x[|x| - 1])
    ensures Trim(w1 + x + w2) == x
  {
    assert w1 + x + w2 == w1 + (x + w2);
    TrimStartRun(w1, x + w2);
    TrimEndRun(x, w2);
  }

  /** `trim` gives the empty string exactly for all-whitespace text. */
  lemma TrimBlank(s: string)
    ensures Trim(s) == [] <==> AllSpace(s)
  {
    var t := TrimStart(s);
    if Trim(s) == [] {
      assert AllSpace(t[0..]);
      assert t == [];
      assert s[..|s|] == s;
    }
  }

  /** JavaScript `String.prototype.length`: UTF-16 code units, two for a
      code point above U+FFFF. */
  function Utf16Length(s: string): (n: nat)
    ensures |s| <= n <= 2 * |s|
    ensures n == |s| <==> forall i :: 0 <= i < |s| ==> s[i] <= '\U{FFFF}'
  {
    if s == [] then 0
    else
      var n := (if s[0] <= '\U{FFFF}' then 1 else 2) + Utf16Length(s[1..]);
      assert forall i :: 1 <= i < |s| ==> s[i] == s[1..][i - 1];
      n
  }

  /** `sep` occurs in `s` starting at position `j`. */
  predicate OccursAt(s: string, sep: string, j: int) {
    0 <= j && j + |sep| <= |s| && s[j..j + |sep|] == sep
  }

  predicate Contains(s: string, sep: string) {
    exists j | 0 <= j <= |s| :: OccursAt(s, sep, j)
  }

  lemma OccursAtShift(s: string, sep: string, j: int)
    requires |s| > 0 && j >= 1
    ensures OccursAt(s, sep, j) <==> OccursAt(s[1..], sep, j - 1)
  {
    if j + |sep| <= |s| {
      assert s[j..j + |sep|] == s[1..][j - 1..j - 1 + |sep|];
    }
  }

  /** `String.prototype.indexOf` for a non-empty separator: the first
      position at which `sep` occurs, if any. */
  function IndexOf(s: string, sep: string): (r: Option<nat>)
    requires |sep| > 0
    ensures r.Some? ==> OccursAt(s, sep, r.value)
    ensures r.Some? ==> forall j :: 0 <= j < r.value ==> !OccursAt(s, sep, j)
    ensures r.None? <==> !Contains(s, sep)
    decreases |s|
  {
    if |s| < |sep| then None
    else if s[..|sep|] == sep then Some(0)
    else
      var rest := IndexOf(s[1..], sep);
      forall j | 1 <= j
        ensures OccursAt(s, sep, j) <==> OccursAt(s[1..], sep, j - 1)
      {
        OccursAtShift(s, sep, j);
      }
      assert !OccursAt(s, sep, 0);
      match rest
      case None => None
      case Some(i) => Some(i + 1)
  }

  /** The first occurrence of `sep` in `a + sep + b` is the one right after
      `a` exactly when no occurrence starts inside `a`. */
  predicate CleanBefore(a: string, sep: string) {
    forall j :: 0 <= j < |a| ==> !OccursAt(a + sep, sep, j)
  }

  lemma IndexOfAfterClean(a: string, sep: string, b: string)
    requires |sep| > 0 && CleanBefore(a, sep)
    ensures IndexOf(a + sep + b, sep) == Some(|a|)
  {
    var s := a + sep + b;
    assert s[|a|..|a| + |sep|] == sep;
    assert OccursAt(s, sep, |a|);
    var r := IndexOf(s, sep);
    if r.value < |a| {
      assert (a + sep)[r.value..r.value + |sep|] == s[r.value..r.value + |sep|];
      assert OccursAt(a + sep, sep, r.value);
      assert false;
    }
  }

  /** `String.prototype.join`. */
  function Join(parts: seq<string>, sep: string): string
  {
    if |parts| == 0 then ""
    else if |parts| == 1 then parts[0]
    else parts[0] + sep + Join(parts[1..], sep)
  }

  /** `String.prototype.split` on a non-empty separator: the pieces between
      successive leftmost occurrences. Joining them back gives `s`. */
  function Split(s: string, sep: string): (parts: seq<string>)
    requires |sep| > 0
    ensures |parts| >= 1
    ensures Join(parts, sep) == s
    decreases |s|
  {
    var found := IndexOf(s, sep);
    if found.None? then [s]
    else
      var i := found.value;
      var tail := s[i + |sep|..];
      var rest := Split(tail, sep);
      assert s == s[..i] + sep + tail;
      var parts := [s[..i]] + rest;
      assert parts[1..] == rest;
      parts
  }

  /** No piece of a split holds the separator, and there is more than one
      piece exactly when the separator occurs. */
  lemma {:induction false} SplitPieces(s: string, sep: string)
    requires |sep| > 0
    ensures var parts := Split(s, sep);
            && (forall i :: 0 <= i < |parts| ==> !Contains(parts[i], sep))
            && (|parts| == 1 <==> !Contains(s, sep))
    decreases |s|
  {
    var found := IndexOf(s, sep);
    if found.Some? {
      var i := found.value;
      var tail := s[i + |sep|..];
      SplitPieces(tail, sep);
      PrefixBeforeFirst(s, sep, i);
      var parts := Split(s, sep);
      assert parts == [s[..i]] + Split(tail, sep);
      assert forall k :: 1 <= k < |parts| ==> parts[k] == Split(tail, sep)[k - 1];
    }
  }

  /** The text before the first occurrence holds no occurrence. */
  lemma PrefixBeforeFirst(s: string, sep: string, i: nat)
    requires |sep| > 0 && i <= |s|
    requires forall j :: 0 <= j < i ==> !OccursAt(s, sep, j)
    ensures !Contains(s[..i], sep)
  {
    forall j | 0 <= j <= i ensures !OccursAt(s[..i], sep, j) {
      if j + |sep| <= i {
        assert !OccursAt(s, sep, j);
        assert s[..i][j..j + |sep|] == s[j..j + |sep|];
      }
    }
  }

  /** Splitting undoes joining when the pieces are free of the separator,
      including across the boundaries the separator is put on. */
  lemma {:induction false} SplitJoin(parts: seq<string>, sep: string)
    requires |sep| > 0 && |parts| >= 1
    requires forall i :: 0 <= i < |parts| - 1 ==> CleanBefore(parts[i], sep)
    requires !Contains(parts[|parts| - 1], sep)
    ensures Split(Join(parts, sep), sep) == parts
    decreases |parts|
  {
    if |parts| > 1 {
      var rest := Join(parts[1..], sep);
      var s := parts[0] + sep + rest;
      assert Join(parts, sep) == s;
      IndexOfAfterClean(parts[0], sep, rest);
      assert s[..|parts[0]|] == parts[0];
      assert s[|parts[0]| + |sep|..] == rest;
      assert Split(s, sep) == [parts[0]] + Split(rest, sep);
      SplitJoin(parts[1..], sep);
      assert parts == [parts[0]] + parts[1..];
    }
  }

  /** `sep` is not found when it holds a character `s` lacks. */
  lemma AbsentChar(s: string, sep: string, c: char)
    requires c in sep && c !in s
    ensures !Contains(s, sep)
  {
    var k :| 0 <= k < |sep| && sep[k] == c;
    forall j | 0 <= j <= |s| ensures !OccursAt(s, sep, j) {
      if j + |sep| <= |s| {
        assert s[j..j + |sep|][k] == s[j + k];
      }
    }
  }

  /** A separator without line breaks cannot straddle a line break. */
  lemma NoneAcrossLineBreak(x: string, y: string, sep: string)
    requires '\n' !in sep
    requires !Contains(x, sep) && !Contains(y, sep)
    ensures !Contains(x + "\n" + y, sep)
  {
    var s := x + "\n" + y;
    forall j | 0 <= j <= |s| ensures !OccursAt(s, sep, j) {
      if j + |sep| <= |s| {
        if j + |sep| <= |x| {
          assert !OccursAt(x, sep, j);
          assert s[j..j + |sep|] == x[j..j + |sep|];
        } else if j > |x| {
          assert !OccursAt(y, sep, j - |x| - 1);
          assert s[j..j + |sep|] == y[j - |x| - 1..j - |x| - 1 + |sep|];
        } else {
          assert sep[|x| - j] != '\n';
          assert s[j..j + |sep|][|x| - j] == '\n';
        }
      }
    }
  }

  /** Hence text ending in a line break has no occurrence before the
      separator appended to it. */
  lemma CleanBeforeLineBreak(x: string, sep: string)
    requires '\n' !in sep && !Contains(x, sep)
    ensures CleanBefore(x + "\n", sep)
  {
    var a := x + "\n";
    var s := a + sep;
    forall j | 0 <= j < |a| ensures !OccursAt(s, sep, j) {
      if j + |sep| <= |x| {
        assert !OccursAt(x, sep, j);
        assert s[j..j + |sep|] == x[j..j + |sep|];
      } else {
        assert sep[|x| - j] != '\n';
        assert s[j..j + |sep|][|x| - j] == '\n';
      }
    }
  }

  /** Lines free of a line-break-free separator join into text free of it. */
  lemma {:induction false} NoneInLines(lines: seq<string>, sep: string)
    requires |sep| > 0 && '\n' !in sep
    requires forall i :: 0 <= i < |lines| ==> !Contains(lines[i], sep)
    ensures !Contains(Join(lines, "\n"), sep)
    decreases |lines|
  {
    if |lines| > 1 {
      NoneInLines(lines[1..], sep);
      NoneAcrossLineBreak(lines[0], Join(lines[1..], "\n"), sep);
    } else if |lines| == 1 {
      assert !Contains(lines[0], sep);
    }
  }

  /** Joining with a line break splits at any line. */
  lemma {:induction false} JoinAt(lines: seq<string>, k: nat)
    requires 0 < k < |lines|
    ensures Join(lines, "\n") == Join(lines[..k], "\n") + "\n" + Join(lines[k..], "\n")
    decreases k
  {
    if k > 1 {
      JoinAt(lines[1..], k - 1);
      assert lines[1..][..k - 1] == lines[..k][1..];
      assert lines[1..][k - 1..] == lines[k..];
    }
  }
}

=== FILE: migration.dfy ===
/** The migration runner as a state machine over the ledger table, the
    migrations directory and an abstract schema. SQL is executed by an
    oracle that either yields the new schema or fails; every ledger change
    happens inside an all-or-nothing transaction together with the SQL
    that justifies it. */
module Migration {
  import opened Wrappers
  import opened JsString
  import opened Ordering
  import opened MigrationFile

  /** The width of the ledger's `filename VARCHAR(255)` column. */
  const MaxFileNameLength := 255

  const SqlExtension := ".sql"

  /** Why an operation stopped. Each names the file concerned. */
  datatype Fault =
    | SqlFailed(file: string)          // the database rejected the file's statement
    | LedgerRejected(file: string)     // the ledger row could not be written (UNIQUE or VARCHAR(255))
    | Unreadable(file: string)         // `readFile` failed: the file is not in the directory
    | NoRollbackSection(file: string)  // the file has no marker
    | WriteFailed(file: string)        // `writeFile` failed: the name holds a path separator

  /** The runner's world: the ledger (file names in id order), the
      migrations directory (absent, or file name to content) and the
      schema the SQL acts on. */
  datatype Runner<S> = Runner(ledger: seq<string>, dir: Option<map<string, string>>, schema: S)

  /** What an operation leaves behind and what it returns or throws. */
  datatype Step<S, T> = Step(state: Runner<S>, result: Result<T, Fault>)

  /** The database running one statement against a schema: the new schema,
      or `None` when the statement fails. */
  type Exec<!S> = (S, string) -> Option<S>

  predicate NoDup(s: seq<string>) {
    forall i, j :: 0 <= i < j < |s| ==> s[i] != s[j]
  }

  /** `s` with every occurrence of `x` removed. */
  function Without(s: seq<string>, x: string): (r: seq<string>)
    ensures forall y :: y in r <==> y in s && y != x
    ensures |r| <= |s|
  {
    if s == [] then []
    else (if s[0] == x then [] else [s[0]]) + Without(s[1..], x)
  }

  lemma {:induction false} WithoutLast(s: seq<string>)
    requires |s| > 0 && NoDup(s)
    ensures Without(s, s[|s| - 1]) == s[..|s| - 1]
    decreases |s|
  {
    if |s| > 1 {
      var t := s[1..];
      assert t[|t| - 1] == s[|s| - 1];
      assert NoDup(t);
      WithoutLast(t);
      assert s[0] != s[|s| - 1];
      assert s[..|s| - 1] == [s[0]] + t[..|t| - 1];
    }
  }

  lemma NoDupPrefix(s: seq<string>, k: nat)
    requires NoDup(s) && k <= |s|
    ensures NoDup(s[..k])
  {
    forall i, j | 0 <= i < j < k ensures s[..k][i] != s[..k][j] {
      assert s[..k][i] == s[i] && s[..k][j] == s[j];
    }
  }

  lemma SortedNoDup(s: seq<string>)
    requires Sorted(s)
    ensures NoDup(s)
  {
    forall i, j | 0 <= i < j < |s| ensures s[i] != s[j] {
      LessIrreflexive(s[i]);
    }
  }

  /** `getExecutedMigrations`: the ledger in id order. */
  function ExecutedMigrations<S>(r: Runner<S>): seq<string> {
    r.ledger
  }

  /** `getMigrationFiles`: the `.sql` entries of the directory in ascending
      order; a missing directory is created and lists nothing. */
  function GetMigrationFiles<S>(r: Runner<S>): (res: (Runner<S>, seq<string>))
    ensures res.0.ledger == r.ledger && res.0.schema == r.schema
    ensures res.0.dir == (if r.dir.Some? then r.dir else Some(map[]))
    ensures Sorted(res.1)
    ensures forall f :: f in res.1 <==> r.dir.Some? && f in r.dir.value && EndsWith(f, SqlExtension)
  {
    if r.dir.None? then (r.(dir := Some(map[])), [])
    else
      var names := set f | f in r.dir.value && EndsWith(f, SqlExtension);
      (r, SortedList(names))
  }

  /** The files not yet in the ledger, in the order given. */
  function Pending(files: seq<string>, executed: seq<string>): (p: seq<string>)
    ensures forall f :: f in p <==> f in files && f !in executed
    ensures |p| <= |files|
  {
    if files == [] then []
    else
      var rest := Pending(files[1..], executed);
      if files[0] in executed then rest else [files[0]] + rest
  }

  /** Filtering keeps the order: the pending files of a sorted listing
      are sorted. */
  lemma {:induction false} PendingSorted(files: seq<string>, executed: seq<string>)
    requires Sorted(files)
    ensures Sorted(Pending(files, executed))
    decreases |files|
  {
    if files != [] {
      var rest := Pending(files[1..], executed);
      assert Sorted(files[1..]);
      PendingSorted(files[1..], executed);
      if files[0] !in executed {
        var p := [files[0]] + rest;
        forall k | 1 <= k < |p| ensures Less(p[0], p[k]) {
          assert p[k] == rest[k - 1];
          assert rest[k - 1] in files[1..];
        }
      }
    }
  }

  /** Nothing is pending once every file is in the ledger. */
  lemma {:induction false} PendingNone(files: seq<string>, executed: seq<string>)
    requires forall f :: f in files ==> f in executed
    ensures Pending(files, executed) == []
    decreases |files|
  {
    if files != [] {
      assert files[0] in files;
      assert forall f :: f in files[1..] ==> f in files;
      PendingNone(files[1..], executed);
    }
  }

  /** The files already in the ledger, in the order given. */
  function Executed(files: seq<string>, executed: seq<string>): (e: seq<string>)
    ensures forall f :: f in e <==> f in files && f in executed
  {
    if files == [] then []
    else (if files[0] in executed then [files[0]] else []) + Executed(files[1..], executed)
  }

  /** Every listed file is either pending or executed. */
  lemma {:induction false} PendingExecutedCount(files: seq<string>, executed: seq<string>)
    ensures |Pending(files, executed)| + |Executed(files, executed)| == |files|
    decreases |files|
  {
    if files != [] {
      PendingExecutedCount(files[1..], executed);
    }
  }

  /** A write to the ledger table. */
  datatype LedgerOp = Insert(file: string) | Delete(file: string)

  /** The ledger after the write, or `None` when the table rejects it: an
      insert of a recorded name violates UNIQUE, and one longer than 255
      characters does not fit the column. */
  function ApplyLedger(ledger: seq<string>, op: LedgerOp): (r: Option<seq<string>>)
    ensures op.Insert? ==> (r.Some? <==> op.file !in ledger && |op.file| <= MaxFileNameLength)
    ensures op.Insert? && r.Some? ==> r.value == ledger + [op.file]
    ensures op.Delete? ==> r == Some(Without(ledger, op.file))
  {
    match op
    case Insert(f) =>
      if f in ledger || |f| > MaxFileNameLength then None else Some(ledger + [f])
    case Delete(f) =>
      Some(Without(ledger, f))
  }

  /** `db.transaction` around one statement and one ledger write: both take
      effect, or, when either fails, neither does and the error names the
      file. */
  function Transaction<S>(exec: Exec<S>, r: Runner<S>, sql: string, op: LedgerOp): (res: Result<Runner<S>, Fault>)
    ensures res.Success? <==> exec(r.schema, sql).Some? && ApplyLedger(r.ledger, op).Some?
    ensures res.Success? ==>
      res.value == Runner(ApplyLedger(r.ledger, op).value, r.dir, exec(r.schema, sql).value)
    ensures res.Failure? ==>
      res.error == (if exec(r.schema, sql).None? then SqlFailed(op.file) else LedgerRejected(op.file))
  {
    match exec(r.schema, sql)
    case None => Failure(SqlFailed(op.file))
    case Some(schema) =>
      match ApplyLedger(r.ledger, op)
      case None => Failure(LedgerRejected(op.file))
      case Some(ledger) => Success(Runner(ledger, r.dir, schema))
  }

  /** What a migration file does to a schema, as a function value: `None`
      when the file is missing or its statement fails. */
  type RunFile<!S> = (S, string) -> Option<S>

  /** The file runner of a directory: the forward section of the file. */
  function RunForward<S>(exec: Exec<S>, dir: map<string, string>): RunFile<S> {
    (schema, f) => if f in dir then exec(schema, UpSection(dir[f])) else None
  }

  /** The schema after running `files` in order from `schema`; `None` when
      one of them fails. */
  function Replay<S>(run: RunFile<S>, schema: S, files: seq<string>): Option<S>
    decreases |files|
  {
    if files == [] then Some(schema)
    else
      match run(schema, files[0])
      case None => None
      case Some(next) => Replay(run, next, files[1..])
  }

  /** Replaying one more file: that file first, then the rest. */
  lemma ReplayCons<S>(run: RunFile<S>, schema: S, f: string, rest: seq<string>)
    requires run(schema, f).Some?
    ensures Replay(run, schema, [f] + rest) == Replay(run, run(schema, f).value, rest)
  {
    assert ([f] + rest)[0] == f && ([f] + rest)[1..] == rest;
  }

  /** `after` is `before` followed by the first few of `pending`. */
  predicate CommitsPrefix(before: seq<string>, after: seq<string>, pending: seq<string>) {
    |before| <= |after| <= |before| + |pending| && after == before + pending[..|after| - |before|]
  }

  lemma CommitsPrefixStep(before: seq<string>, after: seq<string>, pending: seq<string>)
    requires pending != [] && CommitsPrefix(before + [pending[0]], after, pending[1..])
    ensures CommitsPrefix(before, after, pending)
    ensures |after| - |before| > 0
  {
    var n := |after| - |before|;
    assert pending[..n] == [pending[0]] + pending[1..][..n - 1];
  }

  /** One pass of the loop of `runMigrations`: read the file, then run its
      forward section and record its name in one transaction. */
  function ApplyOne<S>(exec: Exec<S>, r: Runner<S>, f: string): (res: Result<Runner<S>, Fault>)
    ensures res.Success? <==> r.dir.Some? && f in r.dir.value && f !in r.ledger && |f| <= MaxFileNameLength &&
                              exec(r.schema, UpSection(r.dir.value[f])).Some?
    ensures res.Success? ==>
      res.value == Runner(r.ledger + [f], r.dir, exec(r.schema, UpSection(r.dir.value[f])).value)
    ensures res.Failure? ==> res.error.file == f
  {
    if r.dir.None? || f !in r.dir.value then Failure(Unreadable(f))
    else Transaction(exec, r, UpSection(r.dir.value[f]), Insert(f))
  }

  /** A pass of the loop as a function value. */
  type Apply<!S> = (Runner<S>, string) -> Result<Runner<S>, Fault>

  function ApplyOneOf<S>(exec: Exec<S>): Apply<S> {
    (r, f) => ApplyOne(exec, r, f)
  }

  /** A pass that, when it succeeds, appends its file to the ledger and
      keeps the directory, and when it fails, names its file. */
  ghost predicate AppendsOne<S(!new)>(apply: Apply<S>) {
    forall r: Runner<S>, f: string ::
      && (apply(r, f).Success? ==> apply(r, f).value.ledger == r.ledger + [f] && apply(r, f).value.dir == r.dir)
      && (apply(r, f).Failure? ==> apply(r, f).error.file == f)
  }

  /** A pass whose new schema, within directory `dir`, is what `run` makes
      of the file. */
  ghost predicate RunsFile<S(!new)>(apply: Apply<S>, dir: map<string, string>, run: RunFile<S>) {
    forall r: Runner<S>, f: string ::
      r.dir == Some(dir) && apply(r, f).Success? ==> run(r.schema, f) == Some(apply(r, f).value.schema)
  }

  lemma ApplyOneAppends<S(!new)>(exec: Exec<S>)
    ensures AppendsOne(ApplyOneOf(exec))
  {
    forall r: Runner<S>, f: string
      ensures ApplyOneOf(exec)(r, f) == ApplyOne(exec, r, f)
    {
    }
  }

  lemma ApplyOneRuns<S(!new)>(exec: Exec<S>, dir: map<string, string>)
    ensures RunsFile(ApplyOneOf(exec), dir, RunForward(exec, dir))
  {
    forall r: Runner<S>, f: string
      ensures ApplyOneOf(exec)(r, f) == ApplyOne(exec, r, f)
      ensures RunForward(exec, dir)(r.schema, f) == if f in dir then exec(r.schema, UpSection(dir[f])) else None
    {
    }
  }

  /** The loop of `runMigrations`: one pass per file, stopping at the first
      failure, which is returned. */
  function ApplyAll<S>(apply: Apply<S>, r: Runner<S>, pending: seq<string>): Step<S, ()>
    decreases |pending|
  {
    if pending == [] then Step(r, Success(()))
    else
      match apply(r, pending[0])
      case Failure(e) => Step(r, Failure(e))
      case Success(next) => ApplyAll(apply, next, pending[1..])
  }

  /** What was committed stays: the ledger gains a prefix of `pending`, all
      of it on success, and a failure names the first file not committed.
      The directory is left as it is. */
  lemma {:induction false} ApplyAllCommits<S(!new)>(apply: Apply<S>, r: Runner<S>, pending: seq<string>)
    requires AppendsOne(apply)
    ensures var res := ApplyAll(apply, r, pending);
      && res.state.dir == r.dir
      && CommitsPrefix(r.ledger, res.state.ledger, pending)
      && (res.result.Success? ==> res.state.ledger == r.ledger + pending)
      && (res.result.Failure? ==>
            var n := |res.state.ledger| - |r.ledger|;
            n < |pending| && res.result.error.file == pending[n])
    decreases |pending|
  {
    var res := ApplyAll(apply, r, pending);
    if pending != [] && apply(r, pending[0]).Success? {
      var next := apply(r, pending[0]).value;
      ApplyAllCommits(apply, next, pending[1..]);
      assert res == ApplyAll(apply, next, pending[1..]);
      CommitsPrefixStep(r.ledger, res.state.ledger, pending);
      var n := |res.state.ledger| - |r.ledger|;
      if res.result.Failure? {
        assert pending[1..][n - 1] == pending[n];
      } else {
        assert r.ledger + [pending[0]] + pending[1..] == r.ledger + pending;
      }
    } else {
      assert res.state == r;
    }
  }

  /** The schema after the loop is the result of running exactly the
      committed files, in order: a failed pass leaves no trace. */
  lemma {:induction false} ApplyAllReplays<S(!new)>(apply: Apply<S>, run: RunFile<S>, dir: map<string, string>,
                                                    r: Runner<S>, pending: seq<string>)
    requires AppendsOne(apply) && RunsFile(apply, dir, run) && r.dir == Some(dir)
    ensures var res := ApplyAll(apply, r, pending);
      |r.ledger| <= |res.state.ledger| && Replay(run, r.schema, res.state.ledger[|r.ledger|..]) == Some(res.state.schema)
    decreases |pending|
  {
    var res := ApplyAll(apply, r, pending);
    if pending != [] && apply(r, pending[0]).Success? {
      var f := pending[0];
      var next := apply(r, f).value;
      ApplyAllReplays(apply, run, dir, next, pending[1..]);
      ApplyAllCommits(apply, next, pending[1..]);
      assert res == ApplyAll(apply, next, pending[1..]);
      assert res.state.ledger[|r.ledger|..] == [f] + res.state.ledger[|next.ledger|..];
      ReplayCons(run, r.schema, f, res.state.ledger[|next.ledger|..]);
    } else {
      assert res.state == r;
      assert res.state.ledger[|r.ledger|..] == [];
    }
  }

  /** `runMigrations` with the pass of its loop as a parameter: list the
      files, compute the pending ones and, unless there are none, apply them
      in order. */
  function RunMigrationsWith<S>(apply: Apply<S>, r: Runner<S>): Step<S, ()>
  {
    var executed := ExecutedMigrations(r);
    var (listed, files) := GetMigrationFiles(r);
    var pending := Pending(files, executed);
    if |pending| == 0 then Step(listed, Success(()))
    else ApplyAll(apply, listed, pending)
  }

  /** `runMigrations`. */
  function RunMigrations<S>(exec: Exec<S>, r: Runner<S>): Step<S, ()>
  {
    RunMigrationsWith(ApplyOneOf(exec), r)
  }

  /** A run either commits every pending file, in order, or stops at the
      first one that fails, keeping those before it; the directory is the
      listed one, and with nothing pending nothing happens. */
  ghost predicate RunOutcome<S>(r: Runner<S>, res: Step<S, ()>) {
    var (listed, files) := GetMigrationFiles(r);
    var pending := Pending(files, r.ledger);
    && res.state.dir == listed.dir
    && (pending == [] ==> res == Step(listed, Success(())))
    && (res.result.Success? ==> res.state.ledger == r.ledger + pending)
    && (res.result.Failure? ==>
          exists n :: 0 <= n < |pending| && res.state.ledger == r.ledger + pending[..n] &&
                      res.result.error.file == pending[n])
  }

  lemma RunMigrationsWithOutcome<S(!new)>(apply: Apply<S>, r: Runner<S>)
    requires AppendsOne(apply)
    ensures RunOutcome(r, RunMigrationsWith(apply, r))
  {
    var (listed, files) := GetMigrationFiles(r);
    var pending := Pending(files, r.ledger);
    if pending != [] {
      ApplyAllCommits(apply, listed, pending);
      var res := ApplyAll(apply, listed, pending);
      var n := |res.state.ledger| - |r.ledger|;
      assert res.state.ledger == r.ledger + pending[..n];
    }
  }

  lemma RunMigrationsOutcome<S(!new)>(exec: Exec<S>, r: Runner<S>)
    ensures var (listed, files) := GetMigrationFiles(r);
      var pending := Pending(files, r.ledger);
      var res := RunMigrations(exec, r);
      && res.state.dir == listed.dir
      && (pending == [] ==> res == Step(listed, Success(())))
      && (res.result.Success? ==> res.state.ledger == r.ledger + pending)
      && (res.result.Failure? ==>
            exists n :: 0 <= n < |pending| && res.state.ledger == r.ledger + pending[..n] &&
                        res.result.error.file == pending[n])
  {
    ApplyOneAppends(exec);
    RunMigrationsWithOutcome(ApplyOneOf(exec), r);
  }

  /** The schema after a run is what the committed files' forward
      sections make of the schema before it, in order. */
  lemma RunMigrationsWithReplays<S(!new)>(apply: Apply<S>, run: RunFile<S>, r: Runner<S>)
    requires AppendsOne(apply) && RunsFile(apply, GetMigrationFiles(r).0.dir.value, run)
    ensures var res := RunMigrationsWith(apply, r);
      |r.ledger| <= |res.state.ledger| && Replay(run, r.schema, res.state.ledger[|r.ledger|..]) == Some(res.state.schema)
  {
    var (listed, files) := GetMigrationFiles(r);
    var pending := Pending(files, r.ledger);
    if pending != [] {
      ApplyAllReplays(apply, run, listed.dir.value, listed, pending);
    } else {
      assert RunMigrationsWith(apply, r).state.ledger[|r.ledger|..] == [];
    }
  }

  lemma RunMigrationsReplays<S(!new)>(exec: Exec<S>, r: Runner<S>)
    ensures var listed := GetMigrationFiles(r).0;
      var res := RunMigrations(exec, r);
      |r.ledger| <= |res.state.ledger| &&
      Replay(RunForward(exec, listed.dir.value), r.schema, res.state.ledger[|r.ledger|..]) == Some(res.state.schema)
  {
    var dir := GetMigrationFiles(r).0.dir.value;
    ApplyOneAppends(exec);
    ApplyOneRuns(exec, dir);
    RunMigrationsWithReplays(ApplyOneOf(exec), RunForward(exec, dir), r);
  }

  /** After a successful run every `.sql` file of the directory is in the
      ledger, so a second run finds nothing pending and changes nothing. */
  lemma RunMigrationsWithIdempotent<S(!new)>(apply: Apply<S>, r: Runner<S>)
    requires AppendsOne(apply) && RunMigrationsWith(apply, r).result.Success?
    ensures var r1 := RunMigrationsWith(apply, r).state;
            RunMigrationsWith(apply, r1) == Step(r1, Success(()))
  {
    RunMigrationsWithOutcome(apply, r);
    var (listed, files) := GetMigrationFiles(r);
    var pending := Pending(files, r.ledger);
    var r1 := RunMigrationsWith(apply, r).state;
    var (listed1, files1) := GetMigrationFiles(r1);
    assert r1.dir == listed.dir;
    assert forall f :: f in files1 <==> f in files;
    assert r1.ledger == r.ledger + pending;
    assert forall f :: f in files ==> f in r1.ledger by {
      forall f | f in files ensures f in r1.ledger {
        if f !in r.ledger {
          assert f in pending;
        }
      }
    }
    PendingNone(files1, r1.ledger);
  }

  lemma RunMigrationsIdempotent<S(!new)>(exec: Exec<S>, r: Runner<S>)
    requires RunMigrations(exec, r).result.Success?
    ensures var r1 := RunMigrations(exec, r).state;
            RunMigrations(exec, r1) == Step(r1, Success(()))
  {
    ApplyOneAppends(exec);
    RunMigrationsWithIdempotent(ApplyOneOf(exec), r);
  }

  /** Appending some of a list of fresh, distinct names keeps a ledger's
      names unique. */
  lemma NoDupAppend(a: seq<string>, pending: seq<string>, n: nat)
    requires NoDup(a) && NoDup(pending) && n <= |pending|
    requires forall f :: f in pending ==> f !in a
    ensures NoDup(a + pending[..n])
  {
    var l := a + pending[..n];
    forall i, j | 0 <= i < j < |l| ensures l[i] != l[j] {
      if j >= |a| {
        assert l[j] == pending[j - |a|];
        if i >= |a| {
          assert l[i] == pending[i - |a|];
        } else {
          assert l[i] == a[i];
          assert pending[j - |a|] in pending;
        }
      } else {
        assert l[i] == a[i] && l[j] == a[j];
      }
    }
  }

  /** The ledger keeps its file names unique across a run. */
  lemma RunMigrationsWithKeepsUnique<S(!new)>(apply: Apply<S>, r: Runner<S>)
    requires AppendsOne(apply) && NoDup(r.ledger)
    ensures NoDup(RunMigrationsWith(apply, r).state.ledger)
  {
    var (listed, files) := GetMigrationFiles(r);
    var pending := Pending(files, r.ledger);
    PendingSorted(files, r.ledger);
    SortedNoDup(pending);
    var res := RunMigrationsWith(apply, r);
    RunMigrationsWithOutcome(apply, r);
    assert res.result.Success? ==> res.state.ledger == r.ledger + pending[..|pending|];
    var n: nat :| n <= |pending| && res.state.ledger == r.ledger + pending[..n];
    NoDupAppend(r.ledger, pending, n);
  }

  lemma RunMigrationsKeepsUnique<S(!new)>(exec: Exec<S>, r: Runner<S>)
    requires NoDup(r.ledger)
    ensures NoDup(RunMigrations(exec, r).state.ledger)
  {
    ApplyOneAppends(exec);
    RunMigrationsWithKeepsUnique(ApplyOneOf(exec), r);
  }

  function Last(s: seq<string>): string
    requires s != []
  {
    s[|s| - 1]
  }

  /** The directory's files, an absent directory being an empty one. */
  function Files<S>(r: Runner<S>): map<string, string> {
    if r.dir.Some? then r.dir.value else map[]
  }

  /** `rollbackLast`: undo the most recent migration. With an empty ledger
      it returns at once. Otherwise the last entry's file must be readable
      and hold a marker; its rollback section and the removal of its ledger
      row then run in one transaction. */
  function RollbackLast<S>(exec: Exec<S>, r: Runner<S>): Step<S, ()>
  {
    if r.ledger == [] then Step(r, Success(()))
    else
      var f := Last(r.ledger);
      if r.dir.None? || f !in r.dir.value then Step(r, Failure(Unreadable(f)))
      else
        match RollbackSection(r.dir.value[f])
        case None => Step(r, Failure(NoRollbackSection(f)))
        case Some(sql) =>
          match Transaction(exec, r, sql, Delete(f))
          case Failure(e) => Step(r, Failure(e))
          case Success(next) => Step(next, Success(()))
  }

  /** When `rollbackLast` fails and when it succeeds: with an empty ledger
      it succeeds at once; otherwise a missing file, then a file without a
      marker, fail before any transaction, and a file with one succeeds
      exactly when the database accepts the rollback section. */
  lemma RollbackLastOutcome<S>(exec: Exec<S>, r: Runner<S>)
    ensures r.ledger == [] ==> RollbackLast(exec, r) == Step(r, Success(()))
    ensures r.ledger != [] ==>
      var res := RollbackLast(exec, r);
      var f := Last(r.ledger);
      && (f !in Files(r) ==> res.result == Failure(Unreadable(f)))
      && (f in Files(r) && !Contains(Files(r)[f], Marker) ==> res.result == Failure(NoRollbackSection(f)))
      && (f in Files(r) && RollbackSection(Files(r)[f]).Some? ==>
            (res.result.Success? <==> exec(r.schema, RollbackSection(Files(r)[f]).value).Some?))
  {
  }

  /** A failed `rollbackLast` changes nothing and names the newest file. */
  lemma RollbackLastFailure<S>(exec: Exec<S>, r: Runner<S>)
    requires r.ledger != []
    ensures var res := RollbackLast(exec, r);
      res.result.Failure? ==> res.state == r && res.result.error.file == Last(r.ledger)
  {
  }

  /** A successful one has run the rollback section of the newest file,
      removed that file's ledger row and kept the directory. */
  lemma RollbackLastSuccess<S>(exec: Exec<S>, r: Runner<S>)
    requires r.ledger != []
    ensures var res := RollbackLast(exec, r);
      res.result.Success? ==> res.state.ledger == Without(r.ledger, Last(r.ledger)) && res.state.dir == r.dir
    ensures var res := RollbackLast(exec, r);
      res.result.Success? ==>
        && Last(r.ledger) in Files(r)
        && RollbackSection(Files(r)[Last(r.ledger)]).Some?
        && exec(r.schema, RollbackSection(Files(r)[Last(r.ledger)]).value).Some?
        && res.state.schema == exec(r.schema, RollbackSection(Files(r)[Last(r.ledger)]).value).value
  {
  }

  /** With unique names in the ledger, that row is the last one. */
  lemma RollbackLastDropsLast<S>(exec: Exec<S>, r: Runner<S>)
    requires r.ledger != [] && NoDup(r.ledger)
    ensures RollbackLast(exec, r).result.Success? ==> RollbackLast(exec, r).state.ledger == r.ledger[..|r.ledger| - 1]
  {
    RollbackLastSuccess(exec, r);
    WithoutLast(r.ledger);
  }

  /** `rollbackLast` against a fixed database, as a function value. */
  function RollbackLastOf<S>(exec: Exec<S>): Runner<S> -> Step<S, ()> {
    r => RollbackLast(exec, r)
  }

  /** A rollback step that, on a ledger of unique names, removes exactly
      the newest entry whenever it succeeds. */
  ghost predicate DropsNewest<S(!new)>(last: Runner<S> -> Step<S, ()>) {
    forall r: Runner<S> ::
      NoDup(r.ledger) && r.ledger != [] && last(r).result.Success? ==>
        last(r).state.ledger == r.ledger[..|r.ledger| - 1]
  }

  lemma RollbackLastDropsNewest<S(!new)>(exec: Exec<S>)
    ensures DropsNewest(RollbackLastOf(exec))
  {
    forall r: Runner<S> | NoDup(r.ledger) && r.ledger != [] && RollbackLastOf(exec)(r).result.Success?
      ensures RollbackLastOf(exec)(r).state.ledger == r.ledger[..|r.ledger| - 1]
    {
      assert RollbackLastOf(exec)(r) == RollbackLast(exec, r);
      RollbackLastDropsLast(exec, r);
    }
  }

  /** `n` rollback steps in a row, stopping at the first failure; on
      success, the files rolled back, in order. */
  function RollbackRepeat<S>(last: Runner<S> -> Step<S, ()>, r: Runner<S>, n: nat): Step<S, seq<string>>
    decreases n
  {
    if n == 0 then Step(r, Success([]))
    else
      var step := last(r);
      if step.result.Failure? then Step(step.state, Failure(step.result.error))
      else
        var undone := if r.ledger == [] then [] else [Last(r.ledger)];
        var rest := RollbackRepeat(last, step.state, n - 1);
        if rest.result.Failure? then Step(rest.state, Failure(rest.result.error))
        else Step(rest.state, Success(undone + rest.result.value))
  }

  /** `down` run `n` times. */
  function RollbackTimes<S>(exec: Exec<S>, r: Runner<S>, n: nat): Step<S, seq<string>> {
    RollbackRepeat(RollbackLastOf(exec), r, n)
  }

  /** One more rollback on the ledger: dropping the last entry, then the
      last `n - 1` of the rest, is dropping the last `n`. */
  lemma DropNewestLedger(l: seq<string>, l1: seq<string>, n: nat)
    requires 0 < n <= |l| && l1 == l[..|l| - 1]
    ensures l1[..|l1| - (n - 1)] == l[..|l| - n]
  {
  }

  /** `s` back to front. */
  function Reverse(s: seq<string>): (r: seq<string>)
    ensures |r| == |s|
  {
    if s == [] then [] else [s[|s| - 1]] + Reverse(s[..|s| - 1])
  }

  /** The element at `i` of a reversed sequence is the one `i` places from
      the end. */
  lemma {:induction false} ReverseIndex(s: seq<string>, i: nat)
    requires i < |s|
    ensures Reverse(s)[i] == s[|s| - 1 - i]
    decreases |s|
  {
    if i > 0 {
      ReverseIndex(s[..|s| - 1], i - 1);
    }
  }

  /** The last `n` entries of `l`, newest first. */
  function Newest(l: seq<string>, n: nat): seq<string>
    requires n <= |l|
    decreases n
  {
    if n == 0 then [] else [Last(l)] + Newest(l[..|l| - 1], n - 1)
  }

  /** `Newest` is the reversed suffix. */
  lemma {:induction false} NewestReversed(l: seq<string>, n: nat)
    requires n <= |l|
    ensures Newest(l, n) == Reverse(l[|l| - n..])
    decreases n
  {
    if n > 0 {
      var l1 := l[..|l| - 1];
      NewestReversed(l1, n - 1);
      var t := l[|l| - n..];
      assert t[|t| - 1] == Last(l);
      assert t[..|t| - 1] == l1[|l1| - (n - 1)..];
    }
  }

  /** One step of `RollbackRepeat` on a ledger of unique names: a
      successful run of `n > 0` steps is a successful step that drops the
      newest entry, then a successful run of `n - 1` on the rest. */
  lemma RollbackRepeatStep<S(!new)>(last: Runner<S> -> Step<S, ()>, r: Runner<S>, n: nat)
    requires DropsNewest(last)
    requires NoDup(r.ledger) && 0 < n <= |r.ledger|
    ensures var res := RollbackRepeat(last, r, n);
      var rest := RollbackRepeat(last, last(r).state, n - 1);
      res.result.Success? ==>
        && last(r).state.ledger == r.ledger[..|r.ledger| - 1]
        && NoDup(last(r).state.ledger)
        && rest.result.Success?
        && res.state == rest.state
        && res.result.value == [Last(r.ledger)] + rest.result.value
  {
    NoDupPrefix(r.ledger, |r.ledger| - 1);
  }

  /** With unique ledger names, `n` successful steps that each drop the
      newest entry leave the ledger without its last `n` entries. */
  lemma {:induction false} RollbackRepeatLedger<S(!new)>(last: Runner<S> -> Step<S, ()>, r: Runner<S>, n: nat)
    requires DropsNewest(last)
    requires NoDup(r.ledger) && n <= |r.ledger|
    ensures var res := RollbackRepeat(last, r, n);
      res.result.Success? ==> res.state.ledger == r.ledger[..|r.ledger| - n]
    decreases n
  {
    var l := r.ledger;
    if n == 0 {
      assert l[..|l|] == l;
    } else if RollbackRepeat(last, r, n).result.Success? {
      var next := last(r).state;
      RollbackRepeatStep(last, r, n);
      RollbackRepeatLedger(last, next, n - 1);
      DropNewestLedger(l, next.ledger, n);
    }
  }

  /** ... and return the files they undid, newest first. */
  lemma {:induction false} RollbackRepeatOrder<S(!new)>(last: Runner<S> -> Step<S, ()>, r: Runner<S>, n: nat)
    requires DropsNewest(last)
    requires NoDup(r.ledger) && n <= |r.ledger|
    ensures var res := RollbackRepeat(last, r, n);
      res.result.Success? ==> res.result.value == Newest(r.ledger, n)
    decreases n
  {
    if n > 0 {
      var res := RollbackRepeat(last, r, n);
      var next := last(r).state;
      RollbackRepeatStep(last, r, n);
      if res.result.Success? {
        RollbackRepeatOrder(last, next, n - 1);
      }
    }
  }

  /** Undoing the `|p|` entries appended after `a` returns them newest
      first. */
  lemma RollbackRepeatAppended<S(!new)>(last: Runner<S> -> Step<S, ()>, r: Runner<S>, a: seq<string>, p: seq<string>)
    requires DropsNewest(last)
    requires NoDup(r.ledger) && r.ledger == a + p
    ensures var back := RollbackRepeat(last, r, |p|);
      back.result.Success? ==> back.state.ledger == a && back.result.value == Reverse(p)
  {
    RollbackRepeatLedger(last, r, |p|);
    RollbackRepeatOrder(last, r, |p|);
    NewestReversed(r.ledger, |p|);
    assert r.ledger[..|r.ledger| - |p|] == a;
    assert r.ledger[|r.ledger| - |p|..] == p;
  }

  /** Rolling back as many times as a successful run applied files takes
      the ledger back to where it was, undoing the files newest first. */
  lemma ApplyThenRollback<S(!new)>(exec: Exec<S>, r: Runner<S>)
    requires NoDup(r.ledger)
    requires RunMigrations(exec, r).result.Success?
    ensures var pending := Pending(GetMigrationFiles(r).1, r.ledger);
            var back := RollbackTimes(exec, RunMigrations(exec, r).state, |pending|);
            back.result.Success? ==> back.state.ledger == r.ledger && back.result.value == Reverse(pending)
  {
    var pending := Pending(GetMigrationFiles(r).1, r.ledger);
    RunMigrationsOutcome(exec, r);
    RunMigrationsKeepsUnique(exec, r);
    RollbackLastDropsNewest(exec);
    RollbackRepeatAppended(RollbackLastOf(exec), RunMigrations(exec, r).state, r.ledger, pending);
  }

  /** `createMigration`: create the directory if need be and write the
      template under a name built from the clock and `name`. The clock is
      read twice, for the file name (`t1`) and for the header (`t2`). A file
      name holding `/` is taken as a failed write; how `path.join` would
      resolve it is not modelled. The ledger and the schema are never
      touched. */
  function CreateMigration<S>(r: Runner<S>, name: string, t1: Instant, t2: Instant): (res: Step<S, string>)
    ensures res.state.ledger == r.ledger && res.state.schema == r.schema
    ensures res.result.Success? <==> '/' !in FileName(name, t1)
    ensures res.result.Success? ==>
              && res.result.value == FileName(name, t1)
              && res.state.dir == Some(Files(r)[FileName(name, t1) := Template(name, t2)])
    ensures res.result.Failure? ==> res.state.dir == Some(Files(r)) && res.result.error == WriteFailed(FileName(name, t1))
  {
    var f := FileName(name, t1);
    var created := r.(dir := Some(Files(r)));
    if '/' in f then Step(created, Failure(WriteFailed(f)))
    else Step(created.(dir := Some(Files(r)[f := Template(name, t2)])), Success(f))
  }

  /** A created migration is listed by the next run and, if it was not
      applied before, is pending. */
  lemma CreatedIsPending<S>(r: Runner<S>, name: string, t1: Instant, t2: Instant)
    requires ValidInstant(t1)
    ensures var res := CreateMigration(r, name, t1, t2);
            var files := GetMigrationFiles(res.state).1;
            res.result.Success? ==>
            && res.result.value in files
            && (res.result.value !in r.ledger ==> res.result.value in Pending(files, r.ledger))
  {
    FileNameShape(name, t1);
  }

  /** For a name without the marker, the created file rolls back with the
      template's `DROP TABLE example;`. */
  lemma CreatedRollsBack<S>(r: Runner<S>, name: string, t1: Instant, t2: Instant)
    requires !Contains(name, Marker)
    ensures var res := CreateMigration(r, name, t1, t2);
            res.result.Success? ==> RollbackSection(res.state.dir.value[res.result.value]) == Some(TemplateRollback)
  {
    TemplateSections(name, t2);
  }
}

=== FILE: migration_file.dfy ===
/** The text of migration files: the marker that separates the forward
    statement from the rollback statement, the file name `createMigration`
    derives from the clock and the migration name, and the template it
    writes. */
module MigrationFile {
  import opened Wrappers
  import opened JsString

  /** The line that separates the two sections of a migration file. */
  const Marker := "-- ROLLBACK"

  /** The text before the first occurrence of `sep`, or all of `s`. */
  function Before(s: string, sep: string): (r: string)
    requires |sep| > 0
    ensures |r| <= |s| && r == s[..|r|]
    ensures !Contains(r, sep)
    ensures !Contains(s, sep) ==> r == s
    ensures Contains(s, sep) ==> OccursAt(s, sep, |r|)
  {
    var found := IndexOf(s, sep);
    if found.None? then s
    else
      PrefixBeforeFirst(s, sep, found.value);
      s[..found.value]
  }

  /** The statement `runMigrations` executes: the first piece of the split
      on the marker, trimmed. Without a marker it is the whole file. */
  function UpSection(content: string): (sql: string)
    ensures sql == Trim(Before(content, Marker))
    ensures !Contains(content, Marker) ==> sql == Trim(content)
  {
    Trim(Split(content, Marker)[0])
  }

  /** The statement `rollbackLast` executes: the second piece of the split,
      trimmed, that is the text between the first marker and the next one
      (or the end). `None` when the file has no marker. */
  function RollbackSection(content: string): (sql: Option<string>)
    ensures sql.None? <==> !Contains(content, Marker)
    ensures sql.Some? ==>
      var i := |Before(content, Marker)|;
      i + |Marker| <= |content| && sql.value == Trim(Before(content[i + |Marker|..], Marker))
  {
    SplitPieces(content, Marker);
    var parts := Split(content, Marker);
    if |parts| < 2 then None else Some(Trim(parts[1]))
  }

  function Pow10(k: nat): nat {
    if k == 0 then 1 else 10 * Pow10(k - 1)
  }

  /** `n` written with exactly `width` decimal digits, zero-padded; it
      reads back as `n` whenever `n` fits. */
  function Digits(n: nat, width: nat): (s: string)
    ensures |s| == width && AllDigits(s)
    ensures n < Pow10(width) ==> DecimalValue(s) == n
  {
    if width == 0 then []
    else
      var init := Digits(n / 10, width - 1);
      var s := init + [('0' as int + n % 10) as char];
      assert s[..|s| - 1] == init;
      s
  }

  /** A moment as `Date.prototype.toISOString` prints it, in UTC. */
  datatype Instant = Instant(year: nat, month: nat, day: nat, hour: nat, minute: nat, second: nat, millisecond: nat)

  /** Four-digit years only; the other fields in their calendar ranges. */
  predicate ValidInstant(t: Instant) {
    && t.year <= 9999 && 1 <= t.month <= 12 && 1 <= t.day <= 31
    && t.hour <= 23 && t.minute <= 59 && t.second <= 59 && t.millisecond <= 999
  }

  function DatePart(t: Instant): string {
    Digits(t.year, 4) + "-" + Digits(t.month, 2) + "-" + Digits(t.day, 2)
  }

  function TimePart(t: Instant): string {
    Digits(t.hour, 2) + ":" + Digits(t.minute, 2) + ":" + Digits(t.second, 2)
  }

  /** `toISOString`: `YYYY-MM-DDTHH:mm:ss.sssZ`. */
  function IsoString(t: Instant): (s: string)
    ensures |s| == 24
  {
    DatePart(t) + "T" + TimePart(t) + "." + Digits(t.millisecond, 3) + "Z"
  }

  const StampPunctuation: set<char> := {'-', ':', 'T'}

  /** `.replace(/[-:T]/g, "")`. */
  function Strip(s: string): (r: string)
    ensures |r| <= |s|
  {
    if s == [] then []
    else (if s[0] in StampPunctuation then [] else [s[0]]) + Strip(s[1..])
  }

  /** What `Strip` leaves is exactly the characters of `s` that are not
      punctuation, in order: none of it is punctuation, and every other
      character of `s` survives. */
  lemma {:induction false} StripRemovesPunctuation(s: string)
    ensures forall i :: 0 <= i < |Strip(s)| ==> Strip(s)[i] !in StampPunctuation
    ensures forall c :: c in s && c !in StampPunctuation ==> c in Strip(s)
    decreases |s|
  {
    if s != [] {
      StripRemovesPunctuation(s[1..]);
      var head := if s[0] in StampPunctuation then [] else [s[0]];
      assert Strip(s) == head + Strip(s[1..]);
      forall c | c in s && c !in StampPunctuation ensures c in Strip(s) {
        if c != s[0] {
          assert c in s[1..];
        }
      }
    }
  }

  lemma {:induction false} StripConcat(a: string, b: string)
    ensures Strip(a + b) == Strip(a) + Strip(b)
    decreases |a|
  {
    if a != [] {
      StripConcat(a[1..], b);
      assert (a + b)[0] == a[0];
      assert (a + b)[1..] == a[1..] + b;
    } else {
      assert a + b == b;
    }
  }

  lemma {:induction false} StripDigits(d: string)
    requires AllDigits(d)
    ensures Strip(d) == d
    decreases |d|
  {
    if d != [] {
      assert IsDigit(d[0]);
      StripDigits(d[1..]);
    }
  }

  /** A separator after a digit field is dropped. */
  lemma StripSeparator(a: string, c: char, b: string)
    requires AllDigits(a) && c in StampPunctuation
    ensures Strip(a + ([c] + b)) == a + Strip(b)
  {
    StripConcat(a, [c] + b);
    StripDigits(a);
    assert ([c] + b)[0] == c && ([c] + b)[1..] == b;
  }

  /** Two separators between three digit fields are dropped. */
  lemma StripFields(a: string, c1: char, b: string, c2: char, c: string)
    requires AllDigits(a) && AllDigits(b) && AllDigits(c)
    requires c1 in StampPunctuation && c2 in StampPunctuation
    ensures Strip(a + ([c1] + (b + ([c2] + c)))) == a + (b + c)
  {
    StripSeparator(a, c1, b + ([c2] + c));
    StripSeparator(b, c2, c);
    StripDigits(c);
  }

  /** The timestamp prefix of a migration file name:
      `toISOString().replace(/[-:T]/g, "").slice(0, 14)`. */
  function Stamp(t: Instant): string {
    var s := Strip(IsoString(t));
    if |s| <= 14 then s else s[..14]
  }

  lemma StripDate(t: Instant)
    ensures Strip(DatePart(t)) == Digits(t.year, 4) + Digits(t.month, 2) + Digits(t.day, 2)
  {
    var y, m, d := Digits(t.year, 4), Digits(t.month, 2), Digits(t.day, 2);
    StripFields(y, '-', m, '-', d);
    assert DatePart(t) == y + (['-'] + (m + (['-'] + d)));
    assert y + (m + d) == y + m + d;
  }

  lemma StripTime(t: Instant)
    ensures Strip(TimePart(t)) == Digits(t.hour, 2) + Digits(t.minute, 2) + Digits(t.second, 2)
  {
    var h, m, s := Digits(t.hour, 2), Digits(t.minute, 2), Digits(t.second, 2);
    StripFields(h, ':', m, ':', s);
    assert TimePart(t) == h + ([':'] + (m + ([':'] + s)));
    assert h + (m + s) == h + m + s;
  }

  lemma StripFraction(ms: string)
    requires AllDigits(ms)
    ensures Strip("." + ms + "Z") == "." + ms + "Z"
  {
    StripConcat("." + ms, "Z");
    StripConcat(".", ms);
    StripDigits(ms);
  }

  lemma StripAroundT(a: string, b: string, c: string)
    ensures Strip(a + "T" + b + c) == Strip(a) + Strip(b) + Strip(c)
  {
    StripConcat(a + "T" + b, c);
    StripConcat(a + "T", b);
    StripConcat(a, "T");
  }

  /** Stripping the ISO text keeps its digits and the fraction. */
  lemma StripIso(t: Instant)
    ensures Strip(IsoString(t)) == Strip(DatePart(t)) + Strip(TimePart(t)) + ("." + Digits(t.millisecond, 3) + "Z")
  {
    var tail := "." + Digits(t.millisecond, 3) + "Z";
    assert IsoString(t) == DatePart(t) + "T" + TimePart(t) + tail;
    StripAroundT(DatePart(t), TimePart(t), tail);
    StripFraction(Digits(t.millisecond, 3));
  }

  /** The first fourteen characters of a longer text. */
  lemma TakeFourteen(s: string, d: string, tail: string)
    requires s == d + tail && |d| == 14 && tail != []
    ensures (if |s| <= 14 then s else s[..14]) == d
  {
    assert s[..14] == d;
  }

  /** The stamp is the fourteen digits of year, month, day, hour, minute
      and second. */
  lemma StampDigits(t: Instant)
    ensures Stamp(t) == (Digits(t.year, 4) + Digits(t.month, 2) + Digits(t.day, 2)) +
                        (Digits(t.hour, 2) + Digits(t.minute, 2) + Digits(t.second, 2))
  {
    var date := Digits(t.year, 4) + Digits(t.month, 2) + Digits(t.day, 2);
    var time := Digits(t.hour, 2) + Digits(t.minute, 2) + Digits(t.second, 2);
    var tail := "." + Digits(t.millisecond, 3) + "Z";
    StripIso(t);
    StripDate(t);
    StripTime(t);
    var s := Strip(IsoString(t));
    assert s == (date + time) + tail;
    TakeFourteen(s, date + time, tail);
  }

  /** The fields a stamp spells, read back. */
  function ReadStamp(s: string): (fields: seq<nat>)
    requires |s| == 14 && AllDigits(s)
    ensures |fields| == 6
  {
    assert AllDigits(s[0..4]) && AllDigits(s[4..6]) && AllDigits(s[6..8]);
    assert AllDigits(s[8..10]) && AllDigits(s[10..12]) && AllDigits(s[12..14]);
    [DecimalValue(s[0..4]), DecimalValue(s[4..6]), DecimalValue(s[6..8]),
     DecimalValue(s[8..10]), DecimalValue(s[10..12]), DecimalValue(s[12..14])]
  }

  /** The slices of six fields of widths 4, 2, 2, 2, 2, 2. */
  lemma FieldSlices(a: string, b: string, c: string, d: string, e: string, f: string)
    requires |a| == 4 && |b| == 2 && |c| == 2 && |d| == 2 && |e| == 2 && |f| == 2
    ensures var s := (a + b + c) + (d + e + f);
      && |s| == 14
      && s[0..4] == a && s[4..6] == b && s[6..8] == c
      && s[8..10] == d && s[10..12] == e && s[12..14] == f
  {
  }

  /** The stamp of a valid instant is fourteen digits that read back as
      its date and time to the second. */
  lemma StampRoundTrip(t: Instant)
    requires ValidInstant(t)
    ensures |Stamp(t)| == 14 && AllDigits(Stamp(t))
    ensures ReadStamp(Stamp(t)) == [t.year, t.month, t.day, t.hour, t.minute, t.second]
  {
    StampDigits(t);
    var y, mo, d, h, mi, sec :=
      Digits(t.year, 4), Digits(t.month, 2), Digits(t.day, 2), Digits(t.hour, 2), Digits(t.minute, 2), Digits(t.second, 2);
    FieldSlices(y, mo, d, h, mi, sec);
    var s := Stamp(t);
    assert forall i :: 0 <= i < 14 ==> IsDigit(s[i]) by {
      forall i | 0 <= i < 14 ensures IsDigit(s[i]) {
        if i < 4 { assert s[i] == s[0..4][i]; }
        else if i < 6 { assert s[i] == s[4..6][i - 4]; }
        else if i < 8 { assert s[i] == s[6..8][i - 6]; }
        else if i < 10 { assert s[i] == s[8..10][i - 8]; }
        else if i < 12 { assert s[i] == s[10..12][i - 10]; }
        else { assert s[i] == s[12..14][i - 12]; }
      }
    }
  }

  /** `.replace(/\s+/g, "_")`: each maximal run of whitespace becomes one
      underscore. */
  function Slug(name: string): (r: string)
    ensures |r| <= |name|
    ensures NoSpace(r)
    decreases |name|
  {
    if name == [] then []
    else if IsSpace(name[0]) then
      var rest := TrimStart(name);
      assert |rest| < |name| by {
        assert rest != name;
        assert name[0..] == name;
      }
      "_" + Slug(rest)
    else
      [name[0]] + Slug(name[1..])
  }

  /** A name without whitespace is kept as it is. */
  lemma {:induction false} SlugKeeps(name: string)
    requires NoSpace(name)
    ensures Slug(name) == name
    decreases |name|
  {
    if name != [] {
      assert !IsSpace(name[0]);
      SlugKeeps(name[1..]);
    }
  }

  /** One run of whitespace between a word and the rest becomes one
      underscore, however long the run. */
  lemma {:induction false} SlugRun(a: string, w: string, b: string)
    requires NoSpace(a) && |w| > 0 && AllSpace(w)
    requires b == [] || !IsSpace(b[0])
    ensures Slug(a + w + b) == a + "_" + Slug(b)
    decreases |a|
  {
    if a == [] {
      assert a + w + b == w + b;
      TrimStartRun(w, b);
    } else {
      assert (a + w + b)[1..] == a[1..] + w + b;
      assert !IsSpace(a[0]);
      SlugRun(a[1..], w, b);
    }
  }

  /** `${timestamp}_${slug}.sql`. */
  function FileName(name: string, t: Instant): string {
    Stamp(t) + "_" + Slug(name) + ".sql"
  }

  lemma NameLayout(stamp: string, slug: string)
    requires |stamp| == 14 && AllDigits(stamp) && NoSpace(slug)
    ensures var f := stamp + "_" + slug + ".sql";
      && |f| == 19 + |slug|
      && f[..14] == stamp && f[14] == '_' && f[15..|f| - 4] == slug
      && EndsWith(f, ".sql")
      && NoSpace(f)
  {
    var f := stamp + "_" + slug + ".sql";
    assert f[|f| - 4..] == ".sql";
    forall i | 0 <= i < |f| ensures !IsSpace(f[i]) {
      if i < 14 {
        assert f[i] == stamp[i] && IsDigit(stamp[i]);
      } else if 15 <= i < |f| - 4 {
        assert f[i] == slug[i - 15];
      }
    }
  }

  /** A created file name is its fourteen-digit stamp, an underscore, the
      slug of the name and `.sql`; it carries no whitespace. */
  lemma FileNameShape(name: string, t: Instant)
    requires ValidInstant(t)
    ensures var f := FileName(name, t);
      && |f| == 19 + |Slug(name)|
      && f[..14] == Stamp(t) && AllDigits(f[..14]) && f[14] == '_'
      && f[15..|f| - 4] == Slug(name)
      && EndsWith(f, ".sql")
      && NoSpace(f)
  {
    StampRoundTrip(t);
    NameLayout(Stamp(t), Slug(name));
  }

  /** The statement a fresh migration is rolled back with. */
  const TemplateRollback := "DROP TABLE example;"

  /** The template's lines from the blank line after the header to the
      blank line before the marker. */
  const TemplateBody: seq<string> := [
    "",
    "-- UP",
    "CREATE TABLE example (",
    "  id SERIAL PRIMARY KEY,",
    "  name VARCHAR(255) NOT NULL,",
    "  created_at TIMESTAMP DEFAULT CURRENT_TIMESTAMP",
    ");",
    ""
  ]

  /** The first line of the template, before the migration name. */
  const HeaderPrefix := "-- Migration: "

  /** The lines of the template `createMigration` writes; joined with line
      breaks, the last, empty, line leaves a trailing line break. */
  function TemplateLines(name: string, created: string): seq<string> {
    [HeaderPrefix + name, "-- Created: " + created] + TemplateBody + [Marker, TemplateRollback, ""]
  }

  function Template(name: string, t: Instant): string {
    Join(TemplateLines(name, IsoString(t)), "\n")
  }

  lemma MarkerChars()
    ensures |Marker| == 11 && Marker[0] == '-' && Marker[1] == '-' && Marker[3] == 'R'
  {
  }

  lemma HeaderPrefixChars()
    ensures |HeaderPrefix| == 14 && HeaderPrefix[2] == ' ' && HeaderPrefix[3] == 'M'
    ensures forall k :: 2 <= k < 14 ==> HeaderPrefix[k] != '-'
  {
  }

  /** The header line cannot hold the marker unless the name does: the
      marker starts with `-- R` and the header with `-- M`. */
  lemma HeaderLine(name: string)
    requires !Contains(name, Marker)
    ensures !Contains(HeaderPrefix + name, Marker)
  {
    var p := HeaderPrefix;
    HeaderPrefixChars();
    MarkerChars();
    var s := p + name;
    forall j | 0 <= j <= |s| ensures !OccursAt(s, Marker, j) {
      if j + |Marker| <= |s| {
        var w := s[j..j + |Marker|];
        if j >= |p| {
          assert !OccursAt(name, Marker, j - |p|);
          assert w == name[j - |p|..j - |p| + |Marker|];
        } else if j == 0 {
          assert w[3] == s[3];
          assert s[3] == p[3];
        } else if j == 1 {
          assert w[1] == s[2];
          assert s[2] == p[2];
        } else {
          assert w[0] == s[j];
          assert s[j] == p[j];
        }
      }
    }
  }

  /** The ISO text holds digits and `-:T.Z` only, so no `R`. */
  lemma IsoHasNoR(t: Instant)
    ensures 'R' !in IsoString(t)
  {
    var s := IsoString(t);
    forall i | 0 <= i < |s| ensures s[i] != 'R' {
      var pieces := [Digits(t.year, 4), Digits(t.month, 2), Digits(t.day, 2),
                     Digits(t.hour, 2), Digits(t.minute, 2), Digits(t.second, 2), Digits(t.millisecond, 3)];
      assert forall k :: 0 <= k < |pieces| ==> AllDigits(pieces[k]);
    }
  }

  /** A line is free of the marker when it lacks one of its characters. */
  lemma LineClean(line: string, c: char)
    requires c in Marker && c !in line
    ensures !Contains(line, Marker)
  {
    AbsentChar(line, Marker, c);
  }

  // Solver aid: a string literal is the concatenation of its pieces.
  lemma NameColumnPieces()
    ensures "  name" + " VARCHAR" + "(255)" + " NOT NULL," == "  name VARCHAR(255) NOT NULL,"
  {
  }

  lemma NameColumnLacksDash()
    ensures '-' !in "  name VARCHAR(255) NOT NULL,"
  {
    NameColumnPieces();
    assert '-' !in "  name" && '-' !in " VARCHAR";
    assert '-' !in "(255)" && '-' !in " NOT NULL,";
  }

  // Solver aid: a string literal is the concatenation of its pieces.
  lemma CreatedAtColumnPieces()
    ensures "  created_at" + " TIMESTAMP " == "  created_at TIMESTAMP "
    ensures "DEFAULT " + "CURRENT_TIMESTAMP" == "DEFAULT CURRENT_TIMESTAMP"
  {
  }

  // Solver aid: a string literal is the concatenation of its pieces.
  lemma CreatedAtColumnHalves()
    ensures "  created_at TIMESTAMP " + "DEFAULT CURRENT_TIMESTAMP" ==
            "  created_at TIMESTAMP DEFAULT CURRENT_TIMESTAMP"
  {
  }

  lemma CreatedAtColumnLacksDash()
    ensures '-' !in "  created_at TIMESTAMP DEFAULT CURRENT_TIMESTAMP"
  {
    CreatedAtColumnPieces();
    assert '-' !in "  created_at" && '-' !in " TIMESTAMP ";
    assert '-' !in "DEFAULT " && '-' !in "CURRENT_TIMESTAMP";
    CreatedAtColumnHalves();
  }

  lemma ColumnLinesClean()
    ensures !Contains("  name VARCHAR(255) NOT NULL,", Marker)
    ensures !Contains("  created_at TIMESTAMP DEFAULT CURRENT_TIMESTAMP", Marker)
  {
    NameColumnLacksDash();
    LineClean("  name VARCHAR(255) NOT NULL,", '-');
    CreatedAtColumnLacksDash();
    LineClean("  created_at TIMESTAMP DEFAULT CURRENT_TIMESTAMP", '-');
  }

  lemma ShortLinesClean()
    ensures !Contains("", Marker) && !Contains("-- UP", Marker) && !Contains(");", Marker)
  {
    LineClean("", '-');
    LineClean("-- UP", 'R');
    LineClean(");", '-');
  }

  lemma TableLinesClean()
    ensures !Contains("CREATE TABLE example (", Marker)
    ensures !Contains("  id SERIAL PRIMARY KEY,", Marker)
  {
    LineClean("CREATE TABLE example (", '-');
    LineClean("  id SERIAL PRIMARY KEY,", '-');
  }

  lemma TemplateBodyClean()
    ensures forall i :: 0 <= i < |TemplateBody| ==> !Contains(TemplateBody[i], Marker)
  {
    ColumnLinesClean();
    ShortLinesClean();
    TableLinesClean();
  }

  /** The lines before the marker line hold no marker. */
  lemma TemplateHeadClean(name: string, created: string)
    requires !Contains(name, Marker) && 'R' !in created
    ensures !Contains(Join(TemplateLines(name, created)[..10], "\n"), Marker)
  {
    var lines := TemplateLines(name, created)[..10];
    assert lines == [HeaderPrefix + name, "-- Created: " + created] + TemplateBody;
    HeaderLine(name);
    assert 'R' !in "-- Created: " + created;
    AbsentChar("-- Created: " + created, Marker, 'R');
    TemplateBodyClean();
    assert forall i :: 2 <= i < 10 ==> lines[i] == TemplateBody[i - 2];
    NoneInLines(lines, Marker);
  }

  /** Lines ending in the marker line, one more line and an empty line
      join to the text before the marker, the marker, and that line on a
      line of its own. */
  lemma JoinMarkerTail(lines: seq<string>, k: nat, last: string)
    requires 0 < k && |lines| == k + 3 && lines[k..] == [Marker, last, ""]
    ensures Join(lines, "\n") == (Join(lines[..k], "\n") + "\n") + Marker + ("\n" + last + "\n")
  {
    JoinAt(lines, k);
    var t := lines[k..];
    assert t[1..] == [last, ""] && t[1..][1..] == [""];
    assert Join(t[1..], "\n") == last + "\n" + "";
    assert Join(t, "\n") == Marker + "\n" + (last + "\n" + "");
    var j := Join(lines[..k], "\n");
    assert j + "\n" + (Marker + "\n" + (last + "\n" + "")) == (j + "\n") + Marker + ("\n" + last + "\n");
  }

  /** The template is the lines up to the marker, the marker, and the
      rollback statement on a line of its own. */
  lemma TemplateAtMarker(name: string, t: Instant)
    ensures Template(name, t) ==
            (Join(TemplateLines(name, IsoString(t))[..10], "\n") + "\n") + Marker + ("\n" + TemplateRollback + "\n")
  {
    var lines := TemplateLines(name, IsoString(t));
    assert |lines| == 13 && lines[10..] == [Marker, TemplateRollback, ""];
    JoinMarkerTail(lines, 10, TemplateRollback);
  }

  /** Text with exactly one marker, after a line break, splits there. */
  lemma SplitAroundMarker(head: string, tail: string)
    requires !Contains(head, Marker) && '-' !in tail
    ensures Split((head + "\n") + Marker + tail, Marker) == [head + "\n", tail]
  {
    CleanBeforeLineBreak(head, Marker);
    AbsentChar(tail, Marker, '-');
    var parts := [head + "\n", tail];
    assert Join(parts, Marker) == (head + "\n") + Marker + tail;
    SplitJoin(parts, Marker);
  }

  lemma RollbackLineTrimmed()
    ensures Trim("\n" + TemplateRollback + "\n") == TemplateRollback
  {
    var x := TemplateRollback;
    assert !IsSpace(x[0]) && !IsSpace(x[|x| - 1]);
    TrimAround("\n", x, "\n");
  }

  /** The rollback section of content that splits into two parts is the
      trimmed second part. */
  lemma RollbackOfTwoParts(content: string, parts: seq<string>)
    requires Split(content, Marker) == parts && |parts| == 2
    ensures RollbackSection(content) == Some(Trim(parts[1]))
  {
  }

  /** A fresh template, for a name without the marker, splits at its one
      marker line. */
  lemma TemplateSplit(name: string, t: Instant)
    requires !Contains(name, Marker)
    ensures Split(Template(name, t), Marker) ==
            [Join(TemplateLines(name, IsoString(t))[..10], "\n") + "\n", "\n" + TemplateRollback + "\n"]
  {
    var created := IsoString(t);
    IsoHasNoR(t);
    TemplateAtMarker(name, t);
    TemplateHeadClean(name, created);
    var r := TemplateRollback;
    assert '-' !in r;
    assert '-' !in "\n" + r + "\n";
    SplitAroundMarker(Join(TemplateLines(name, created)[..10], "\n"), "\n" + r + "\n");
  }

  /** Hence it has exactly two sections, and its rollback section is
      `DROP TABLE example;`. */
  lemma TemplateSections(name: string, t: Instant)
    requires !Contains(name, Marker)
    ensures |Split(Template(name, t), Marker)| == 2
    ensures RollbackSection(Template(name, t)) == Some(TemplateRollback)
  {
    TemplateSplit(name, t);
    var parts := Split(Template(name, t), Marker);
    RollbackOfTwoParts(Template(name, t), parts);
    RollbackLineTrimmed();
  }
}

=== FILE: migration_script.dfy ===
/** The migration command line: the argument list picks one runner
    operation or is a usage error, and `status` reports the executed and
    pending migrations without touching the ledger. */
module MigrationScript {
  import opened Wrappers
  import opened Ordering
  import opened MigrationFile
  import opened Migration

  /** The operations the command line offers. */
  datatype Command = Up | Down | ShowStatus | Create(name: string)

  /** Why the arguments were refused; the process then exits with 1. */
  datatype UsageError = MissingName | UnknownCommand(command: string)

  /** The command word: the first argument, `up` when it is absent or
      empty (`args[0] || "up"`). */
  function CommandWord(args: seq<string>): (word: string)
    ensures word != ""
    ensures |args| > 0 && args[0] != "" ==> word == args[0]
    ensures |args| == 0 || args[0] == "" ==> word == "up"
  {
    if |args| == 0 || args[0] == "" then "up" else args[0]
  }

  /** The migration name: the second argument, if any. */
  function NameArgument(args: seq<string>): Option<string> {
    if |args| > 1 then Some(args[1]) else None
  }

  /** The `switch` of `main` over the command word. `create` needs a name
      that is neither absent nor empty; arguments after the ones a command
      uses are ignored. */
  function ParseArgs(args: seq<string>): (r: Result<Command, UsageError>)
    ensures r.Success? <==>
      CommandWord(args) in {"up", "down", "status"} ||
      (CommandWord(args) == "create" && |args| > 1 && args[1] != "")
    ensures r.Failure? && CommandWord(args) == "create" ==> r.error == MissingName
    ensures CommandWord(args) !in {"up", "down", "status", "create"} ==> r == Failure(UnknownCommand(CommandWord(args)))
  {
    var command := CommandWord(args);
    var name := NameArgument(args);
    if command == "up" then Success(Up)
    else if command == "down" then Success(Down)
    else if command == "status" then Success(ShowStatus)
    else if command == "create" then
      if name.None? || name.value == "" then Failure(MissingName) else Success(Create(name.value))
    else Failure(UnknownCommand(command))
  }

  /** The shortest argument list that selects a command. */
  function CommandArgs(c: Command): seq<string> {
    match c
    case Up => []
    case Down => ["down"]
    case ShowStatus => ["status"]
    case Create(name) => ["create", name]
  }

  /** Every command the parser can yield is reached by its own argument
      list, and with no arguments at all the command is `up`. */
  lemma ParseCommandArgs(c: Command)
    requires c.Create? ==> c.name != ""
    ensures ParseArgs(CommandArgs(c)) == Success(c)
  {
  }

  /** The parser yields a command only from that command's word, and a
      `create` only with the name given second. */
  lemma ParsedFrom(args: seq<string>)
    requires ParseArgs(args).Success?
    ensures var c := ParseArgs(args).value;
      && (c == Up <==> CommandWord(args) == "up")
      && (c == Down <==> CommandWord(args) == "down")
      && (c == ShowStatus <==> CommandWord(args) == "status")
      && (c.Create? <==> CommandWord(args) == "create")
      && (c.Create? ==> c.name == args[1] && c.name != "")
  {
  }

  /** What `status` prints: the ledger, the pending files and the number
      of listed files. */
  datatype Report = Report(executed: seq<string>, pending: seq<string>, total: nat)

  /** `showMigrationStatus`: read the ledger and list the directory, which
      creates it when missing. */
  function Status<S>(r: Runner<S>): (res: (Runner<S>, Report))
    ensures res.0.ledger == r.ledger && res.0.schema == r.schema
    ensures res.1.executed == r.ledger
    ensures forall f :: f in res.1.pending <==> f in GetMigrationFiles(r).1 && f !in r.ledger
  {
    var executed := ExecutedMigrations(r);
    var (listed, files) := GetMigrationFiles(r);
    (listed, Report(executed, Pending(files, executed), |files|))
  }

  /** The status reports as pending exactly the files a run would apply,
      in the order it would apply them. */
  lemma StatusAgreesWithRun<S>(exec: Exec<S>, r: Runner<S>)
    ensures Status(r).1.pending == Pending(GetMigrationFiles(r).1, r.ledger)
    ensures Status(r).1.pending == [] ==> RunMigrations(exec, r) == Step(Status(r).0, Success(()))
  {
  }

  /** Every listed file is counted once: pending ones plus listed ones in
      the ledger make up the total. */
  lemma StatusCounts<S>(r: Runner<S>)
    ensures var report := Status(r).1;
      |report.pending| + |Executed(GetMigrationFiles(r).1, r.ledger)| == report.total
  {
    PendingExecutedCount(GetMigrationFiles(r).1, r.ledger);
  }

  /** A sequence without repetitions has as many elements as its set. */
  lemma {:induction false} NoDupCard(s: seq<string>)
    requires NoDup(s)
    ensures |set x | x in s| == |s|
    decreases |s|
  {
    if s != [] {
      var t := s[1..];
      assert NoDup(t);
      NoDupCard(t);
      assert s[0] !in t by {
        forall k | 0 <= k < |t| ensures t[k] != s[0] {
          assert t[k] == s[k + 1];
        }
      }
      assert (set x | x in s) == {s[0]} + (set x | x in t) by {
        assert forall x :: x in s <==> x == s[0] || x in t;
      }
    }
  }

  /** Keeping some elements of a sequence without repetitions keeps it
      without repetitions. */
  lemma {:induction false} ExecutedNoDup(files: seq<string>, executed: seq<string>)
    requires NoDup(files)
    ensures NoDup(Executed(files, executed))
    decreases |files|
  {
    if files != [] {
      var t := files[1..];
      assert NoDup(t);
      ExecutedNoDup(t, executed);
      var rest := Executed(t, executed);
      var head := if files[0] in executed then [files[0]] else [];
      var e := head + rest;
      assert files[0] !in rest by {
        forall k | 0 <= k < |t| ensures t[k] != files[0] {
          assert t[k] == files[k + 1];
        }
      }
      forall i, j | 0 <= i < j < |e| ensures e[i] != e[j] {
        if |head| == 1 && i == 0 {
          assert e[j] == rest[j - 1];
          assert rest[j - 1] in rest;
        } else {
          assert e[i] == rest[i - |head|] && e[j] == rest[j - |head|];
        }
      }
    }
  }

  /** A ledger of unique names, all of them listed, is as long as the
      listed files it holds. */
  lemma ExecutedCoversLedger(files: seq<string>, ledger: seq<string>)
    requires NoDup(files) && NoDup(ledger)
    requires forall f :: f in ledger ==> f in files
    ensures |Executed(files, ledger)| == |ledger|
  {
    var e := Executed(files, ledger);
    ExecutedNoDup(files, ledger);
    NoDupCard(e);
    NoDupCard(ledger);
    assert (set x | x in e) == (set x | x in ledger);
  }

  /** When the ledger names only listed files, each once, the report's
      numbers add up: executed plus pending is the total. Otherwise rows
      whose file has gone from the directory count as executed but not in
      the total. */
  lemma StatusBalanced<S>(r: Runner<S>)
    requires NoDup(r.ledger)
    requires forall f :: f in r.ledger ==> f in GetMigrationFiles(r).1
    ensures var report := Status(r).1;
      |report.executed| + |report.pending| == report.total
  {
    var files := GetMigrationFiles(r).1;
    PendingExecutedCount(files, r.ledger);
    SortedNoDup(files);
    ExecutedCoversLedger(files, r.ledger);
  }

  /** What a run of the script ended with. */
  datatype Outcome =
    | Done                  // `up` or `down` returned normally
    | Reported(report: Report)
    | Created(file: string)
    | Refused(usage: UsageError)
    | Failed(fault: Fault)  // an operation threw; `main` logs it and exits

  /** The process exit status: 1 after a usage error or a failure. */
  function ExitCode(o: Outcome): nat {
    if o.Refused? || o.Failed? then 1 else 0
  }

  function StepOutcome<S>(s: Step<S, ()>): (Runner<S>, Outcome) {
    (s.state, if s.result.Success? then Done else Failed(s.result.error))
  }

  /** `create`: the file written, or the failure to write it. */
  function CreateOutcome<S>(r: Runner<S>, name: string, t1: Instant, t2: Instant): (res: (Runner<S>, Outcome))
    ensures res.0 == CreateMigration(r, name, t1, t2).state
    ensures res.1 == if '/' in FileName(name, t1) then Failed(WriteFailed(FileName(name, t1))) else Created(FileName(name, t1))
  {
    var s := CreateMigration(r, name, t1, t2);
    (s.state, if s.result.Success? then Created(s.result.value) else Failed(s.result.error))
  }

  /** `main`: parse the arguments and run the chosen operation against the
      database `exec`; `t1` and `t2` are the two clock readings `create`
      takes. */
  function Main<S>(exec: Exec<S>, r: Runner<S>, args: seq<string>, t1: Instant, t2: Instant): (res: (Runner<S>, Outcome))
    ensures ParseArgs(args).Failure? ==> res == (r, Refused(ParseArgs(args).error))
    ensures ExitCode(res.1) == 0 <==> ParseArgs(args).Success? && !res.1.Failed?
    ensures res.0.schema != r.schema ==> ParseArgs(args) == Success(Up) || ParseArgs(args) == Success(Down)
  {
    match ParseArgs(args)
    case Failure(e) => (r, Refused(e))
    case Success(Up) => StepOutcome(RunMigrations(exec, r))
    case Success(Down) => StepOutcome(RollbackLast(exec, r))
    case Success(ShowStatus) =>
      var (next, report) := Status(r);
      (next, Reported(report))
    case Success(Create(name)) => CreateOutcome(r, name, t1, t2)
  }

  /** `up` is `runMigrations`: its state, and `Done` exactly when it
      returns normally. */
  lemma MainUp<S>(exec: Exec<S>, r: Runner<S>, args: seq<string>, t1: Instant, t2: Instant)
    requires ParseArgs(args) == Success(Up)
    ensures var (next, outcome) := Main(exec, r, args, t1, t2);
      && next == RunMigrations(exec, r).state
      && (outcome == Done <==> RunMigrations(exec, r).result.Success?)
  {
  }

  /** `down` is `rollbackLast`, likewise. */
  lemma MainDown<S>(exec: Exec<S>, r: Runner<S>, args: seq<string>, t1: Instant, t2: Instant)
    requires ParseArgs(args) == Success(Down)
    ensures var (next, outcome) := Main(exec, r, args, t1, t2);
      && next == RollbackLast(exec, r).state
      && (outcome == Done <==> RollbackLast(exec, r).result.Success?)
  {
  }

  /** `status` is `showMigrationStatus`: the listing's state, and a
      report of the ledger and of the files a run would apply. */
  lemma MainStatus<S>(exec: Exec<S>, r: Runner<S>, args: seq<string>, t1: Instant, t2: Instant)
    requires ParseArgs(args) == Success(ShowStatus)
    ensures Main(exec, r, args, t1, t2) == (Status(r).0, Reported(Status(r).1))
    ensures var (next, outcome) := Main(exec, r, args, t1, t2);
      && next == GetMigrationFiles(r).0
      && outcome.Reported?
      && outcome.report.executed == r.ledger
      && outcome.report.pending == Pending(GetMigrationFiles(r).1, r.ledger)
  {
  }

  /** `create` writes the file `createMigration` names, or fails when that
      name holds `/`. */
  lemma MainCreate<S>(exec: Exec<S>, r: Runner<S>, args: seq<string>, t1: Instant, t2: Instant)
    requires ParseArgs(args).Success? && ParseArgs(args).value.Create?
    ensures var name := ParseArgs(args).value.name;
      Main(exec, r, args, t1, t2) ==
        (CreateMigration(r, name, t1, t2).state,
         if '/' in FileName(name, t1) then Failed(WriteFailed(FileName(name, t1))) else Created(FileName(name, t1)))
  {
    assert Main(exec, r, args, t1, t2) == CreateOutcome(r, ParseArgs(args).value.name, t1, t2);
  }

  /** Only `up` and `down` touch the ledger; `status` and `create` leave
      it and the schema as they were. */
  lemma MainLedger<S>(exec: Exec<S>, r: Runner<S>, args: seq<string>, t1: Instant, t2: Instant)
    requires ParseArgs(args) != Success(Up) && ParseArgs(args) != Success(Down)
    ensures Main(exec, r, args, t1, t2).0.ledger == r.ledger
    ensures Main(exec, r, args, t1, t2).0.schema == r.schema
  {
  }
}

=== FILE: ordering.dfy ===
/** The order in which JavaScript's default `Array.prototype.sort` puts
    strings, and the sorted listing of a finite set of names. */
module Ordering {

  /** Lexicographic order on code points in which a proper prefix comes
      first. */
  predicate Less(a: string, b: string)
    decreases |a|
  {
    if |a| == 0 then |b| > 0
    else if |b| == 0 then false
    else if a[0] != b[0] then a[0] < b[0]
    else Less(a[1..], b[1..])
  }

  lemma {:induction false} LessIrreflexive(a: string)
    ensures !Less(a, a)
    decreases |a|
  {
    if |a| > 0 {
      LessIrreflexive(a[1..]);
    }
  }

  lemma {:induction false} LessTransitive(a: string, b: string, c: string)
    requires Less(a, b) && Less(b, c)
    ensures Less(a, c)
    decreases |a|
  {
    if |a| > 0 && |b| > 0 && |c| > 0 && a[0] == b[0] && b[0] == c[0] {
      LessTransitive(a[1..], b[1..], c[1..]);
    }
  }

  lemma {:induction false} LessTotal(a: string, b: string)
    ensures a == b || Less(a, b) || Less(b, a)
    decreases |a|
  {
    if |a| > 0 && |b| > 0 && a[0] == b[0] {
      LessTotal(a[1..], b[1..]);
      if a[1..] == b[1..] {
        assert a == [a[0]] + a[1..] && b == [b[0]] + b[1..];
      }
    }
  }

  lemma LessAsymmetric(a: string, b: string)
    ensures Less(a, b) ==> !Less(b, a)
  {
    if Less(a, b) && Less(b, a) {
      LessTransitive(a, b, a);
      LessIrreflexive(a);
    }
  }

  /** Every element of the sequence precedes every later one; in particular
      no name is listed twice. */
  predicate Sorted(s: seq<string>) {
    forall i, j :: 0 <= i < j < |s| ==> Less(s[i], s[j])
  }

  /** `m` is the first of `s` in the order. */
  predicate IsLeast(m: string, s: set<string>) {
    m in s && forall y :: y in s && y != m ==> Less(m, y)
  }

  lemma {:induction false} LeastExists(s: set<string>)
    requires s != {}
    ensures exists m :: IsLeast(m, s)
    decreases |s|
  {
    var x :| x in s;
    if s != {x} {
      LeastExists(s - {x});
      var m :| IsLeast(m, s - {x});
      LessTotal(x, m);
      if Less(x, m) {
        forall y | y in s && y != x ensures Less(x, y) {
          if y != m {
            LessTransitive(x, m, y);
          }
        }
        assert IsLeast(x, s);
      } else {
        assert IsLeast(m, s);
      }
    } else {
      assert IsLeast(x, s);
    }
  }

  lemma LeastUnique(s: set<string>)
    ensures forall a, b :: IsLeast(a, s) && IsLeast(b, s) ==> a == b
  {
    forall a, b | IsLeast(a, s) && IsLeast(b, s) ensures a == b {
      LessAsymmetric(a, b);
    }
  }

  /** The names of `s` in ascending order, each once: what
      `names.sort()` yields for any listing of the names of `s`. */
  function SortedList(s: set<string>): (r: seq<string>)
    ensures Sorted(r)
    ensures forall x :: x in r <==> x in s
    ensures |r| == |s|
    decreases |s|
  {
    if s == {} then []
    else
      LeastExists(s);
      LeastUnique(s);
      var m :| IsLeast(m, s);
      var rest := SortedList(s - {m});
      var r := [m] + rest;
      assert forall i :: 1 <= i < |r| ==> r[i] == rest[i - 1] && rest[i - 1] in s - {m};
      assert |s - {m}| == |s| - 1;
      r
  }

  /** Sorting is canonical: two sorted listings of the same names agree. */
  lemma {:induction false} SortedUnique(a: seq<string>, b: seq<string>)
    requires Sorted(a) && Sorted(b)
    requires forall x :: x in a <==> x in b
    ensures a == b
    decreases |a|
  {
    if |b| > 0 {
      assert b[0] in a;
    }
    if |a| > 0 {
      assert a[0] in b;
      var a0, b0 := a[0], b[0];
      assert b0 in a;
      LessTotal(a0, b0);
      LessAsymmetric(a0, b0);
      var i :| 0 <= i < |b| && b[i] == a0;
      var j :| 0 <= j < |a| && a[j] == b0;
      assert i == 0 || Less(b0, a0);
      assert j == 0 || Less(a0, b0);
      assert a0 == b0;
      forall x ensures x in a[1..] <==> x in b[1..] {
        if x in a[1..] {
          var k :| 1 <= k < |a| && a[k] == x;
          assert Less(a[0], x);
          LessIrreflexive(x);
          assert x in b && x != b[0];
        }
        if x in b[1..] {
          var k :| 1 <= k < |b| && b[k] == x;
          assert Less(b[0], x);
          LessIrreflexive(x);
          assert x in a && x != a[0];
        }
      }
      SortedUnique(a[1..], b[1..]);
      assert a == [a[0]] + a[1..] && b == [b[0]] + b[1..];
    }
  }
}

=== FILE: validate_env.dfy ===
/** Start-up validation of the environment: a rule table folded over the
    variables into an ordered list of diagnostics; start-up fails exactly
    when the list is not empty. */
module ValidateEnv {
  import opened Wrappers
  import opened JsString

  /** The declared type of a variable. */
  datatype ValueType = StringType | NumberType | BooleanType

  /** The custom checks the rule table uses. */
  datatype Validator =
    | PostgresUrl                 // starts with "postgresql://"
    | OneOf(options: seq<string>) // one of a fixed list
    | PortRange                   // `parseInt` gives 1..65535

  datatype EnvRule = EnvRule(
    key: string,
    required: bool,
    valueType: ValueType,
    validator: Option<Validator>,
    errorMessage: Option<string>)

  /** `process.env`: each variable is either absent or holds a string. */
  type Env = map<string, string>

  const DatabaseUrlMessage := "DATABASE_URL must be a valid PostgreSQL connection string"
  const NodeEnvMessage := "NODE_ENV must be one of: development, production, test"
  const PortMessage := "PORT must be a valid port number (1-65535)"
  const NodeEnvironments := ["development", "production", "test"]

  /** The rule table, in the order the variables are checked. */
  const RequiredEnvVars: seq<EnvRule> := [
    EnvRule("DATABASE_URL", true, StringType, Some(PostgresUrl), Some(DatabaseUrlMessage)),
    EnvRule("NODE_ENV", true, StringType, Some(OneOf(NodeEnvironments)), Some(NodeEnvMessage)),
    EnvRule("PORT", false, NumberType, Some(PortRange), Some(PortMessage))
  ]

  /** An unsigned decimal literal: digits with an optional fraction, or a
      fraction alone (`12`, `12.`, `12.5`, `.5`). */
  predicate IsUnsignedDecimal(t: string) {
    var k := DigitPrefixLength(t);
    if k == |t| then k > 0
    else t[k] == '.' && AllDigits(t[k + 1..]) && (k > 0 || k + 1 < |t|)
  }

  /** `!isNaN(Number(v))` for decimal text: once trimmed, the text is
      empty (which is 0) or an optionally signed decimal literal. */
  predicate IsNumeric(v: string) {
    var t := Trim(v);
    || t == []
    || (t[0] in {'+', '-'} && IsUnsignedDecimal(t[1..]))
    || IsUnsignedDecimal(t)
  }

  /** `parseInt(v, 10)`: leading whitespace skipped, an optional sign,
      then the longest run of digits; `None` stands for NaN. */
  function ParseInt(v: string): Option<int>
  {
    var t := TrimStart(v);
    var negative := |t| > 0 && t[0] == '-';
    var body := if |t| > 0 && t[0] in {'+', '-'} then t[1..] else t;
    var k := DigitPrefixLength(body);
    if k == 0 then None
    else
      var n: int := DecimalValue(body[..k]);
      Some(if negative then -n else n)
  }

  /** ASCII lower-casing, the part of `toLowerCase` a boolean flag needs. */
  function ToLowerAscii(s: string): (r: string)
    ensures |r| == |s|
    ensures forall i :: 0 <= i < |s| ==> r[i] == (if 'A' <= s[i] <= 'Z' then (s[i] as int + 32) as char else s[i])
  {
    if s == [] then []
    else [if 'A' <= s[0] <= 'Z' then (s[0] as int + 32) as char else s[0]] + ToLowerAscii(s[1..])
  }

  predicate Passes(validator: Validator, value: string) {
    match validator
    case PostgresUrl => StartsWith(value, "postgresql://")
    case OneOf(options) => value in options
    case PortRange =>
      match ParseInt(value)
      case None => false
      case Some(port) => 0 < port <= 65535
  }

  function MissingMessage(key: string): string {
    "Missing required environment variable: " + key
  }

  function NotNumberMessage(key: string): string {
    "Environment variable " + key + " must be a number"
  }

  /** One pass of the loop body: the diagnostic a rule yields, if any. */
  function CheckRule(rule: EnvRule, env: Env): (r: Option<string>)
    ensures rule.required && (rule.key !in env || AllSpace(env[rule.key])) ==>
              r == Some(MissingMessage(rule.key))
    ensures !rule.required && (rule.key !in env || env[rule.key] == "") ==> r == None
  {
    var value := if rule.key in env then Some(env[rule.key]) else None;
    TrimBlank(if value.Some? then value.value else "");
    if rule.required && (value.None? || value.value == "" || Trim(value.value) == "") then
      Some(MissingMessage(rule.key))
    else if value.None? || value.value == "" then
      None
    else if rule.valueType == NumberType && !IsNumeric(value.value) then
      Some(NotNumberMessage(rule.key))
    else if rule.valueType == BooleanType && ToLowerAscii(value.value) !in ["true", "false"] then
      Some("Environment variable " + rule.key + " must be 'true' or 'false'")
    else if rule.validator.Some? && !Passes(rule.validator.value, value.value) then
      Some(if rule.errorMessage.Some? && rule.errorMessage.value != "" then rule.errorMessage.value
           else "Invalid value for environment variable: " + rule.key)
    else
      None
  }

  function OptionToSeq(o: Option<string>): seq<string> {
    if o.Some? then [o.value] else []
  }

  /** The diagnostics `check` yields over `items`, in order, at most one
      per item, and none exactly when every item passes. */
  function Collect<R>(check: R -> Option<string>, items: seq<R>): (errors: seq<string>)
    ensures |errors| <= |items|
    ensures errors == [] <==> forall i :: 0 <= i < |items| ==> check(items[i]).None?
    decreases |items|
  {
    if items == [] then []
    else
      var rest := Collect(check, items[1..]);
      assert forall i :: 1 <= i < |items| ==> items[i] == items[1..][i - 1];
      OptionToSeq(check(items[0])) + rest
  }

  /** The loop of `validateEnv`: the diagnostics of the rules, in table
      order, at most one per rule, and none exactly when every rule
      passes. */
  function CollectErrors(rules: seq<EnvRule>, env: Env): (errors: seq<string>)
    ensures |errors| <= |rules|
    ensures errors == [] <==> forall i :: 0 <= i < |rules| ==> CheckRule(rules[i], env).None?
  {
    Collect(rule => CheckRule(rule, env), rules)
  }

  /** `validateEnv`: success, or failure with the collected diagnostics
      (the source logs them and throws). */
  function Validate(env: Env): (r: Result<(), seq<string>>)
    ensures r.Success? <==> CollectErrors(RequiredEnvVars, env) == []
    ensures r.Failure? ==> r.error == CollectErrors(RequiredEnvVars, env)
  {
    var errors := CollectErrors(RequiredEnvVars, env);
    if |errors| > 0 then Failure(errors) else Success(())
  }

  /** What the table promises for each variable, stated directly. */
  function DatabaseUrlError(env: Env): Option<string> {
    if "DATABASE_URL" !in env || AllSpace(env["DATABASE_URL"]) then Some(MissingMessage("DATABASE_URL"))
    else if StartsWith(env["DATABASE_URL"], "postgresql://") then None
    else Some(DatabaseUrlMessage)
  }

  function NodeEnvError(env: Env): Option<string> {
    if "NODE_ENV" !in env || AllSpace(env["NODE_ENV"]) then Some(MissingMessage("NODE_ENV"))
    else if env["NODE_ENV"] in {"development", "production", "test"} then None
    else Some(NodeEnvMessage)
  }

  function PortError(env: Env): Option<string> {
    if "PORT" !in env || env["PORT"] == "" then None
    else if !IsNumeric(env["PORT"]) then Some(NotNumberMessage("PORT"))
    else if ParseInt(env["PORT"]).Some? && 1 <= ParseInt(env["PORT"]).value <= 65535 then None
    else Some(PortMessage)
  }

  /** A required string variable with a validator and its own message:
      missing, then valid, then the message. */
  lemma RequiredStringRule(rule: EnvRule, env: Env)
    requires rule.required && rule.valueType == StringType
    requires rule.validator.Some? && rule.errorMessage.Some? && rule.errorMessage.value != ""
    ensures CheckRule(rule, env) ==
      if rule.key !in env || AllSpace(env[rule.key]) then Some(MissingMessage(rule.key))
      else if Passes(rule.validator.value, env[rule.key]) then None
      else rule.errorMessage
  {
    if rule.key in env {
      TrimBlank(env[rule.key]);
    }
  }

  lemma DatabaseUrlRule(env: Env)
    ensures CheckRule(RequiredEnvVars[0], env) == DatabaseUrlError(env)
  {
    RequiredStringRule(RequiredEnvVars[0], env);
  }

  lemma NodeEnvRule(env: Env)
    ensures CheckRule(RequiredEnvVars[1], env) == NodeEnvError(env)
  {
    var rule := RequiredEnvVars[1];
    RequiredStringRule(rule, env);
    if "NODE_ENV" in env {
      var v := env["NODE_ENV"];
      assert Passes(rule.validator.value, v) <==> v in NodeEnvironments;
    }
  }

  lemma PortRule(env: Env)
    ensures CheckRule(RequiredEnvVars[2], env) == PortError(env)
  {
  }

  /** Over three items the loop yields the three verdicts in order. */
  lemma CollectThreeWith<R>(check: R -> Option<string>, items: seq<R>)
    requires |items| == 3
    ensures Collect(check, items) ==
            OptionToSeq(check(items[0])) + OptionToSeq(check(items[1])) + OptionToSeq(check(items[2]))
  {
    var e0, e1, e2 := check(items[0]), check(items[1]), check(items[2]);
    assert items[1..][1..][1..] == [];
    assert Collect(check, items[1..][1..]) == OptionToSeq(e2);
    assert Collect(check, items[1..]) == OptionToSeq(e1) + OptionToSeq(e2);
  }

  lemma CollectThree(rules: seq<EnvRule>, env: Env)
    requires |rules| == 3
    ensures CollectErrors(rules, env) ==
            OptionToSeq(CheckRule(rules[0], env)) + OptionToSeq(CheckRule(rules[1], env)) + OptionToSeq(CheckRule(rules[2], env))
  {
    CollectThreeWith(rule => CheckRule(rule, env), rules);
  }

  /** The loop over the table yields the three per-variable verdicts in
      table order: DATABASE_URL, NODE_ENV, PORT. */
  lemma ErrorsByVariable(env: Env)
    ensures CollectErrors(RequiredEnvVars, env) ==
            OptionToSeq(DatabaseUrlError(env)) + OptionToSeq(NodeEnvError(env)) + OptionToSeq(PortError(env))
  {
    DatabaseUrlRule(env);
    NodeEnvRule(env);
    PortRule(env);
    CollectThree(RequiredEnvVars, env);
  }

  /** A non-empty digit string is a number for `Number`. */
  lemma DigitsNumeric(d: string)
    requires |d| > 0 && AllDigits(d)
    ensures IsNumeric(d)
  {
    var c0, c1 := d[0], d[|d| - 1];
    assert IsDigit(c0) && IsDigit(c1);
    TrimUnpadded(d);
    assert DigitPrefixLength(d) == |d|;
  }

  /** The `parseInt` of a non-empty digit string is its decimal value. */
  lemma DigitsParse(d: string)
    requires |d| > 0 && AllDigits(d)
    ensures ParseInt(d) == Some(DecimalValue(d))
  {
    var c0 := d[0];
    assert IsDigit(c0);
    TrimUnpadded(d[..1]);
    assert TrimStart(d) == d;
    var k := DigitPrefixLength(d);
    assert k == |d|;
    assert d[..k] == d;
  }

  /** A PORT of decimal digits passes exactly when its value is a port
      number, 1 to 65535. */
  lemma PortDigits(env: Env)
    requires "PORT" in env && |env["PORT"]| > 0 && AllDigits(env["PORT"])
    ensures PortError(env) == None <==> 1 <= DecimalValue(env["PORT"]) <= 65535
    ensures PortError(env) != None ==> PortError(env) == Some(PortMessage)
  {
    DigitsNumeric(env["PORT"]);
    DigitsParse(env["PORT"]);
  }
}

=== FILE: wrappers.dfy ===
/** Failure-compatible result types shared by every module of the model. */
module Wrappers {

  /** A value that may be absent: JavaScript's `undefined` and missing keys. */
  datatype Option<+T> = None | Some(value: T) {

    predicate IsFailure() {
      None?
    }

    function PropagateFailure<U>(): Option<U>
      requires None?
    {
      None
    }

    function Extract(): T
      requires Some?
    {
      value
    }
  }

  /** The outcome of an operation that either returns a value or throws. */
  datatype Result<+R, +E> = Success(value: R) | Failure(error: E) {

    predicate IsFailure() {
      Failure?
    }

    function PropagateFailure<U>(): Result<U, E>
      requires Failure?
    {
      Failure(error)
    }

    function Extract(): R
      requires Success?
    {
      value
    }
  }
}
